=== FILE: README.md ===
# Swagger sampler and file-list model

A Dafny model of the two scripts that probe the Taiwan market-data APIs (TWSE, TPEx, TAIFEX). The first script reads a Swagger/OpenAPI document and builds one sample HTTP request per operation. It saves each result under a per-source folder. The second script walks those folders and writes `filelist.json`.

Modelled:

- **Parameter sampler** (`sample_for_type`, module `Sampler`): one representative scalar per parameter declaration.
- **Schema synthesizer** (`make_sample_body_from_schema`, module `Schema`): follows `$ref` into the definitions table and recurses through `properties` and `items`.
- **Request builder** (`build_request_for_operation`, module `RequestBuilder`): places each parameter's sample in the URL, query, headers or body. It also handles the OpenAPI 3 `requestBody`.
- **Operation lister, base-URL rule and file-name rule** (module `Operations`).
- **Name sanitizers** (`sanitize_filename`, `get_source_dir_name`, module `Sanitize`).
- **File-list generator** (module `Listing`): the manifest summary map, the body count, the display label, the file filter and the source order.

How Python values are represented:

- Python values are the `Json` datatype (`JsonModel`). Dicts are ordered association lists, so insertion order is kept.
- Python's truthiness is the predicate `Truthy`.
- Every operation that can raise returns `Result<T>`. `Raise(TypeError)`, `Raise(AttributeError)`, `Raise(IndexError)` and `Raise(KeyError)` follow the exception Python raises on the same input.
- `PyOps` models the Python operators the scripts use: `in`, `[]`, `.get`, `.items()`, iteration and `str()`. Each one raises on the same operand kinds as Python.
- `datetime.utcnow()` is read through a `Clock` input holding its two renderings. One `Clock` reading serves every sample of a request, where Python calls `utcnow()` afresh at each `date` or `date-time` sample (swagger_API.py lines 62-71 and 109-112).
- Recursion through `$ref` is bounded by a `fuel` parameter. `Schema.SynthFuel` proves that for an acyclic definitions table the fuel does not change the result once it exceeds the depth of the table.

## Model

| member | source | states |
|---|---|---|
| Sampler.SampleForType | swagger_API.py:48-71 | a falsy declaration gives "sample"; a truthy non-dict raises; a dict raises only a TypeError, and only for a non-string `pattern`; every result is one of the fixed samples or the first `enum` value |
| Sampler.SampleFields | swagger_API.py:54-71 | for a non-empty dict the only exception is a TypeError from a non-string `pattern`; every result is a fixed sample or the first `enum` value |
| Sampler.SampleEnumFirst | swagger_API.py:54-55 | a non-empty `enum` list decides the sample whatever the type says |
| Sampler.SampleByType | swagger_API.py:56-61 | without an enum, `integer`/`number` give 1 and `boolean` gives true |
| Sampler.SampleByFormatAndPattern | swagger_API.py:62-71 | for other types the format `date`/`date-time` gives the clock's rendering; otherwise a pattern mentioning `\d` gives "123", no pattern gives "sample" and a non-string pattern raises |
| Sampler.SampleFieldsAgree | swagger_API.py:54-71 | two dicts that agree on `enum`, `type`, `format` and `pattern` are sampled alike |
| Sampler.SampleMissingTypeIsString | swagger_API.py:56 | a declaration without `type` is sampled exactly as one declaring `"string"` |
| Schema.ParseRef | swagger_API.py:83 | a parsed key is the final segment of a reference with an accepted prefix |
| Schema.ParseRefMatches | swagger_API.py:83 | every reference of the form prefix/key with an accepted prefix parses to that key (the regex's completeness) |
| Schema.RefMatchUnique | swagger_API.py:83 | a reference splits into prefix and key in at most one way |
| Schema.ResolveRef | swagger_API.py:81-87 | it raises exactly for a non-string reference, or for a parsed one against a truthy non-dict table; a found definition is truthy and is named by the key or by the key with quotes removed |
| Schema.ResolveRefByName | swagger_API.py:84-88 | a definition is found exactly when the reference names a truthy table entry, and it is that entry |
| Schema.ResolvedName | swagger_API.py:85-87 | the name used is one whose entry is truthy, and only a parsed reference has one |
| Schema.Synth | swagger_API.py:74-115 | a falsy schema gives `{}` and a truthy non-dict raises |
| Schema.SynthRef | swagger_API.py:81-89 | it raises only when resolving the reference raises or finds a definition: an unresolved reference never raises (the definition's own result is stated by Schema.SynthRefFollows) |
| Schema.SynthTyped | swagger_API.py:90-115 | an object type yields a dict and an array type a one-element list |
| Schema.SynthLeaf | swagger_API.py:103-115 | it raises exactly on an empty `enum` list outside the date formats; each result is truthy, a clock rendering, or the first enum value |
| Schema.SynthEach | swagger_API.py:96-97 | the property values are synthesized one by one, keys and order kept; it fails with the first failing property's error and succeeds when all succeed |
| Schema.SynthPropsEach | swagger_API.py:94-98 | building the object entry by entry equals synthesizing every property and appending them |
| Schema.SynthProps | swagger_API.py:94-98 | a successful fold over the properties builds a dict (its entries are given by Schema.SynthPropsEach) |
| Schema.SynthRefFirst | swagger_API.py:81-82 | once `$ref` is present, no other field of the schema matters |
| Schema.SynthRefFollows | swagger_API.py:84-88 | a reference naming a truthy definition synthesizes that definition |
| Schema.SynthRefEmpty | swagger_API.py:84-89 | an unparsable reference, a falsy table or an unresolved name gives `{}` |
| Schema.SynthRefRaises | swagger_API.py:81-84 | a non-string reference, or a parsed one against a truthy non-dict table, raises |
| Schema.EffectiveType | swagger_API.py:90-92 | the type read is the declared `type` when truthy, and `object` when it is falsy but `properties` is declared; it is truthy exactly when one of those holds. What each type then yields is stated by Schema.SynthObject and Schema.SynthArray |
| Schema.SynthObject | swagger_API.py:90-98 | an object schema succeeds exactly when every property does, and then yields the dict of the synthesized properties in declaration order |
| Schema.SynthObjectBadProperties | swagger_API.py:95-96 | an object whose `properties` is not a dict raises AttributeError |
| Schema.SynthArray | swagger_API.py:99-101 | an array yields the one-element list of its `items` sample; without `items` that sample is `{}` |
| Schema.SynthScalar | swagger_API.py:103-106 | `integer`/`number` give 1 and `boolean` gives true |
| Schema.SynthOtherType | swagger_API.py:107-115 | for other types the format decides, then a list `enum` (an empty one raises IndexError), then a truthy `example`, then "sample" |
| Schema.SamplersAgree | swagger_API.py:48-115 | on a flat scalar declaration without enum, pattern or example, both samplers give the same value |
| Schema.SynthFuel | swagger_API.py:74-101 | with an acyclic (ranked) table, any fuel at or above the rank bound gives the same result |
| Schema.SynthFuelRef | swagger_API.py:84-88 | the same fuel independence for a `$ref` step |
| Schema.SynthFuelNested | swagger_API.py:90-101 | the same fuel independence through objects and arrays |
| Schema.SynthPropsFuel | swagger_API.py:94-98 | the same fuel independence over a property list |
| Schema.SynthFuelFree | swagger_API.py:103-115 | a scalar schema does not depend on the fuel |
| Schema.SynthSelfRef | swagger_API.py:81-88 | a definition whose `$ref` names itself yields `{}` when the fuel runs out, where Python recurses without end |
| RequestBuilder.JoinUrl | swagger_API.py:162 | the URL starts with the base and a slash, ends with the path stripped of leading slashes, and has nothing in between |
| RequestBuilder.Definitions | swagger_API.py:166-172 | without `components` the table is `definitions` (or `{}`) |
| RequestBuilder.DefinitionsPreferComponents | swagger_API.py:171-172 | `components.schemas` overrides `definitions` when present |
| RequestBuilder.DefinitionsFallBack | swagger_API.py:168-172 | `components` without `schemas` leaves `definitions` in force |
| RequestBuilder.ParamSample | swagger_API.py:179-183 | a parameter without `schema` gets a fixed sample or the head of its `enum`, and raises only TypeError, on a non-string `pattern`; the whole dispatch as a caller sees it is stated by RequestBuilder.ParameterSampleSource |
| RequestBuilder.ParameterSampleSource | swagger_API.py:179-190 | a query or header parameter sends the synthesis of its `schema` when it declares one, else its `sample_for_type` value; when that sampler raises, the parameter raises the same exception |
| RequestBuilder.ApplyParam | swagger_API.py:184-197 | query and header samples are stored under the name and nothing else changes; `body` replaces the body; `formData` adds a field to a dict body (or to a new one) and raises TypeError on a body that is neither a dict nor a list; a path parameter only changes the URL; unknown locations change nothing |
| RequestBuilder.FormDataListBody | swagger_API.py:193-197 | a form parameter on a list body assigns the list element its name indexes, with Python's list-assignment errors |
| RequestBuilder.FormDataListExample | swagger_API.py:197 | on body `[5]`, name 0 gives `["x"]` and name 1 raises IndexError |
| RequestBuilder.PathParamSubstitutes | swagger_API.py:184-186 | when no occurrence of `{name}` starts before a given one, that one becomes `str(sample)`, the text before it is kept (other placeholders included), and the rest of the URL is replaced likewise |
| RequestBuilder.PathParamAbsent | swagger_API.py:184-186 | a URL without `{name}` is left unchanged |
| RequestBuilder.ApplyParameter | swagger_API.py:176-178 | a non-dict parameter raises AttributeError |
| RequestBuilder.ApplyParams | swagger_API.py:175-197 | an empty parameter list leaves the draft unchanged |
| RequestBuilder.ApplyParamsAppend | swagger_API.py:176-197 | the loop over `ps + qs` is the loop over `ps` followed by the loop over `qs`, stopping at the first error |
| RequestBuilder.ParameterPlaced | swagger_API.py:187-190 | a query or header parameter sends its sample under its name |
| RequestBuilder.ApplyParamsPair | swagger_API.py:176-197 | two parameters are applied in declaration order |
| RequestBuilder.LaterParamWins | swagger_API.py:187-190 | of two parameters with the same location and name, the later one's sample is sent |
| RequestBuilder.ApplyParamsKeepAccept | swagger_API.py:176-190 | parameters that are not a header named `Accept` leave the `Accept` header alone |
| RequestBuilder.ApplyParamHeaders | swagger_API.py:184-197 | a parameter that is not a header leaves the headers as they were |
| RequestBuilder.RequestBody | swagger_API.py:199-211 | without `requestBody` the body the parameters built is kept |
| RequestBuilder.RequestBodyJson | swagger_API.py:203-205 | an `application/json` entry's schema decides the body |
| RequestBuilder.RequestBodyOther | swagger_API.py:206-211 | otherwise the first content entry's schema decides it, and an empty `content` keeps the body |
| RequestBuilder.BuildRequest | swagger_API.py:160-219 | a non-string base raises TypeError; a non-dict operation raises AttributeError; the method is the upper-cased verb |
| RequestBuilder.BuildRequestPlain | swagger_API.py:160-219 | an operation without parameters or `requestBody` gets the joined URL, the global headers, no query and no body |
| RequestBuilder.BuildRequestHeaders | swagger_API.py:213-219 | the request's headers are those left by the parameter loop started from the global headers |
| RequestBuilder.BuildRequestParts | swagger_API.py:160-219 | a built request carries the URL, headers and query parameters that the parameter loop left in a draft started from the joined URL and the global headers, and its body is what the `requestBody` rule makes of the draft's body |
| RequestBuilder.BuildRequestJsonBody | swagger_API.py:199-205 | an operation whose `requestBody.content` has an `application/json` entry sends the synthesis of that entry's schema as its body, whatever its parameters set |
| RequestBuilder.BuildRequestKeepsAccept | swagger_API.py:42-44 | `Accept: application/json` survives unless a header parameter named `Accept` overwrites it |
| Operations.PathOps | swagger_API.py:140-142 | at most one operation per method entry, each on the given path with an accepted verb |
| Operations.PathOpsSound | swagger_API.py:140-142 | every listed operation comes from a method entry, with the verb lower-cased |
| Operations.PathOpsComplete | swagger_API.py:140-142 | every method entry whose lower-cased name is an accepted verb is listed |
| Operations.PathOpsAppend | swagger_API.py:140-142 | listing a concatenation of method entries concatenates the listings, so declaration order is kept |
| Operations.PathsOpsRaises | swagger_API.py:139-140 | the lister raises exactly when some path item is not a dict, and then with AttributeError |
| Operations.PathsOpsSound | swagger_API.py:139-142 | every listed operation has an accepted verb and comes from some dict path item |
| Operations.PathsOpsAppend | swagger_API.py:139-142 | listing concatenated path maps concatenates the listings (paths in declaration order) |
| Operations.ListedIffVerb | swagger_API.py:139-142 | a method entry of a path item is listed exactly when its lower-cased name is get, post, put, patch or delete |
| Operations.ListedWhenVerb | swagger_API.py:139-142 | a method entry with an accepted verb is listed |
| Operations.ListOperations | swagger_API.py:135-143 | a non-dict document raises AttributeError; a document without `paths` has no operations |
| Operations.StripSwaggerJson | swagger_API.py:273 | the result is no longer than the URL and is a prefix of it, apart from a kept final newline |
| Operations.StripSwaggerJsonSuffix | swagger_API.py:273 | a final `/swagger.json` (the dot matching any character but a newline) is removed |
| Operations.StripSwaggerJsonBeforeNewline | swagger_API.py:273 | `$` also matches before a final newline, which is kept |
| Operations.StripSwaggerJsonKeeps | swagger_API.py:273 | a URL without the suffix is returned unchanged |
| Operations.BaseUrl | swagger_API.py:261-273 | a non-dict document raises |
| Operations.BaseUrlServers | swagger_API.py:262-263 | a non-empty `servers` list gives the first server's `url` (or "") |
| Operations.BaseUrlHost | swagger_API.py:265-270 | a host without `schemes` gives `https://` + host + basePath |
| Operations.BaseUrlScheme | swagger_API.py:267-270 | the first listed scheme is used |
| Operations.BaseUrlFallback | swagger_API.py:271-273 | without servers or host, the document URL minus `/swagger.json` is used |
| Operations.OutputFileName | swagger_API.py:300 | the name is the upper-cased verb, an underscore, the sanitized path and `.json`, with the sanitized path exactly in the middle |
| Operations.OutputFileNameClean | swagger_API.py:300 | for an accepted verb the whole file name uses only letters, digits, `.`, `_` and `-` |
| Sanitize.Collapse | swagger_API.py:128-132 | the result uses only allowed characters and is no longer than the input |
| Sanitize.CollapseClean | swagger_API.py:131-132 | a string of allowed characters is returned unchanged |
| Sanitize.CollapseIdempotent | swagger_API.py:131-132 | sanitizing twice is sanitizing once |
| Sanitize.CollapseRun | swagger_API.py:131-132 | a maximal run of disallowed characters becomes exactly one `_` |
| Sanitize.CollapsePrefix | swagger_API.py:128 | a word without `_` that starts the sanitized string starts the original |
| Sanitize.CollapseKeepsWords | swagger_API.py:128 | a word without `_` that occurs in the sanitized string occurs in the original |
| Sanitize.SanitizeFilename | swagger_API.py:131-132 | the result uses only letters, digits, `.`, `_` and `-` |
| Sanitize.SourceDirName | swagger_API.py:119-128 | the first provider named in the URL, tried in the order twse, tpex, taifex, is the folder; otherwise the URL with every run of characters outside letters, digits, `_` and `-` collapsed to `_`; the result uses only those characters |
| Sanitize.SourceDirNameProvider | swagger_API.py:119-128 | the folder is twse, tpex or taifex exactly when the URL names one of them |
| Sanitize.SourceDirNameIdempotent | swagger_API.py:119-128 | mapping a folder name again gives the same name |
| Text.LStrip | swagger_API.py:162 | the result is a suffix of the input, all removed characters are the stripped one, and it does not start with it |
| Text.RemoveChar | swagger_API.py:86 | the character no longer occurs, a string without it is unchanged, and exactly its occurrences are dropped (the length falls by their number) |
| Text.RemoveCharAppend | swagger_API.py:86 | removal distributes over concatenation, so the characters kept stay in their order |
| Text.Lower | swagger_API.py:141 | each character is mapped to lower case, length kept |
| Text.Upper | swagger_API.py:215 | each character is mapped to upper case, length kept |
| Text.NatToString | swagger_API.py:186 | `str()` of a natural number is a non-empty string of digits |
| Text.NatToStringRoundTrip | swagger_API.py:186 | reading the digits back gives the number |
| Text.ReplaceAbsent | swagger_API.py:186 | replacing an absent pattern changes nothing |
| Text.ReplaceFirst | swagger_API.py:186 | when no occurrence of the pattern starts inside the prefix, the prefix is kept, the occurrence after it is replaced, and replacing continues after it |
| Text.ReplaceAfterOtherPlaceholder | swagger_API.py:186 | replacing `{b}` in `/{a}/{b}` leaves the earlier placeholder `{a}` in place |
| JsonModel.FalsyValues | swagger_API.py:78 | the falsy values are exactly `None`, `False`, `0`, `""`, `[]` and `{}` |
| JsonModel.Set | swagger_API.py:188-190 | after `d[k] = v`, `k` maps to `v` and every other key is unchanged |
| JsonModel.SetKeys | swagger_API.py:188-190 | overwriting keeps the key order; a new key is appended last |
| JsonModel.SetFresh | swagger_API.py:188-190 | storing keeps the keys distinct |
| PyOps.Get | swagger_API.py:56-57 | `.get` succeeds exactly on a dict and gives the stored value or the default |
| PyOps.Subscript | swagger_API.py:82 | `d[key]` succeeds on a dict holding the key, and then gives the stored value |
| PyOps.SubscriptFirst | swagger_API.py:268 | `xs[0]` gives the first element of a non-empty list and raises IndexError on an empty one |
| PyOps.Items | swagger_API.py:96 | `.items()` succeeds exactly on a dict and gives its pairs in order |
| PyOps.In | swagger_API.py:54 | `in` on a dict tests its keys, and raises only on operands that are not containers |
| PyOps.Str | swagger_API.py:186 | `str()` of a string is the string itself; only lists and dicts fall outside the model |
| PyOps.DictKey | swagger_API.py:188-190 | a key is stored exactly when it is a string, and under that string |
| PyOps.ListIndex | swagger_API.py:197 | a list index is an int, or a bool read as 0 or 1; anything else raises TypeError |
| PyOps.ListSetItem | swagger_API.py:197 | `xs[i] = v` succeeds exactly for `-len(xs) <= i < len(xs)`, replaces the element at `i` (counted from the end when negative) and keeps the others; out of range raises IndexError |
| PyOps.Iterate | swagger_API.py:176 | iterating a list gives its items; it raises only on non-iterable values |
| Listing.ManifestEntries | generate_filelist_json.py:19-24 | a missing manifest gives no entries; a list is used as is; only a list or a dict can give entries |
| Listing.ManifestFiles | generate_filelist_json.py:21-22 | a dict manifest contributes its `files` entry when that is a list, and nothing otherwise |
| Listing.Contribution | generate_filelist_json.py:28-32 | only dict entries with a truthy name and a truthy summary contribute, and they contribute their summary |
| Listing.SummaryFold | generate_filelist_json.py:25-32 | the only error is a TypeError |
| Listing.SummaryFoldRaises | generate_filelist_json.py:25-32 | the map raises exactly when some contributing entry's name is a list or a dict |
| Listing.SummaryFoldStep | generate_filelist_json.py:25-32 | one entry stores its summary under its name and leaves other names alone |
| Listing.SummaryFoldUntouched | generate_filelist_json.py:25-32 | a name no entry contributes keeps its earlier value |
| Listing.SummaryFoldLastWins | generate_filelist_json.py:25-32 | the last entry naming a file decides its summary |
| Listing.SummaryMapLookup | generate_filelist_json.py:16-33 | a file has a summary exactly when some manifest entry names it, and that summary is truthy |
| Listing.GetSummaryMap | generate_filelist_json.py:16-33 | a missing or unreadable manifest gives the empty map; the only exception is a TypeError |
| Listing.ManifestRecord | swagger_API.py:304-311 | the manifest record has the keys `file`, `path`, `method`, `operationId`, `summary`, `status_code`, in that order |
| Listing.ResponseRecord | swagger_API.py:240 | the response record has the keys `status_code`, `headers`, `body`, in that order |
| Listing.EndpointDocument | swagger_API.py:291-298 | the endpoint file has the keys `path`, `method`, `operationId`, `summary`, `request`, `response`, in that order |
| Listing.EntryName | generate_filelist_json.py:29 | a manifest entry's name is its `file` when truthy, else its `path`; it is truthy exactly when one of the two is. Which names end up in the summary map is stated by Listing.ManifestRecordNames and Listing.SummaryMapLookup |
| Listing.ManifestRecordNames | generate_filelist_json.py:29-32 | a manifest record the download script writes names its file exactly when its summary is truthy |
| Listing.ExtractBodyCount | generate_filelist_json.py:36-43 | a non-dict document counts 0; a positive count needs a `response` entry |
| Listing.ExtractBodyCountOfDict | generate_filelist_json.py:36-43 | for any dict document the count is the length of `response.body` when the response is a dict and the body a list, and 0 otherwise |
| Listing.BodyCountOfEndpoint | generate_filelist_json.py:36-43 | for a saved endpoint document the count is the length of a list body, and 0 otherwise |
| Listing.BodyCountOfError | generate_filelist_json.py:36-43 | an endpoint whose request failed counts 0 |
| Listing.Count | generate_filelist_json.py:66-67 | a file has no count exactly when it failed to load or holds JSON `null`; otherwise its count is `extract_body_count` of its content |
| Listing.CountOfEndpoint | generate_filelist_json.py:66-67 | a saved endpoint document always has a count: the length of a list body, and 0 otherwise |
| Listing.DisplayLabel | generate_filelist_json.py:69-70 | without a summary the label is the file name; with one it ends in ` (file)`, and a string summary starts it |
| Listing.DisplayLabelSplits | generate_filelist_json.py:70 | the label is exactly the summary, ` (`, the name and `)` |
| Listing.EndpointFileListed | generate_filelist_json.py:54-57 | every file the download script writes passes the listing filter |
| Listing.FileEntry | generate_filelist_json.py:58-78 | an entry carries its source, its file name, the file's count, the summary stored for that name and that summary's display label; it is built exactly when the label can be |
| Listing.FileEntries | generate_filelist_json.py:53-78 | there are no more entries than files |
| Listing.ListedNames | generate_filelist_json.py:53-57 | only names ending in `.json` (any case), other than `manifest.json`, are listed |
| Listing.ListedNamesAppend | generate_filelist_json.py:53-57 | listing a concatenation lists each part in turn |
| Listing.ListedNamesOne | generate_filelist_json.py:54-57 | a single file is listed exactly when it passes the filter |
| Listing.ListedNamesComplete | generate_filelist_json.py:53-57 | every file that passes the filter is listed |
| Listing.FileEntriesNames | generate_filelist_json.py:53-78 | the entries are exactly the listed names, in directory order, tagged with the source |
| Listing.FileEntriesContent | generate_filelist_json.py:53-78 | each entry's summary and count come from its own file |
| Listing.FolderEntries | generate_filelist_json.py:49-78 | a missing source folder contributes no entries; an existing one contributes one entry per listed file, in directory order, with that file's name and the folder's source |
| Listing.SourcesEntriesTagged | generate_filelist_json.py:48-52 | every entry comes from an existing folder of a configured source |
| Listing.SourcesEntriesStep | generate_filelist_json.py:48-78 | the walk lists one source's entries before the rest |
| Listing.SourcesEntriesThree | generate_filelist_json.py:48-78 | the walk over three sources concatenates their entries in order |
| Listing.FileListOrder | generate_filelist_json.py:7 | the file list is taifex's entries, then tpex's, then twse's |
| Listing.SourcesEntriesAllTagged | generate_filelist_json.py:48-78 | every entry of a walk carries one of the walked sources, whose folder exists |
| Listing.FileList | generate_filelist_json.py:47-78 | every entry of the file list comes from an existing folder of a configured source |
| Listing.SourcesEntriesComplete | generate_filelist_json.py:48-78 | every listed file of a walked source whose folder exists appears in the walk, tagged with that source |
| Listing.FileListComplete | generate_filelist_json.py:48-78 | every listed file of an existing source folder appears in the file list under that source |

## Left out

- Network and disk I/O are not modelled: `fetch_swagger`, `execute_request`, `os.makedirs`, the file writes, `summary.json`, `time.sleep` and the progress prints. The response an endpoint document stores is an input.
- The main loop's `ALLOWED_METHODS` filter (GET only) and its counter are not modelled. The lister and the builder are modelled for every verb.
- `safe_load_json` is an `Option<Json>` input: `None` stands for a missing or corrupt file.
- `os.listdir` and `os.path.isdir` are inputs: a `Folder` per existing source, with the files in directory order.
- `sizeKB` (a float from `os.path.getsize`) and `generatedAt` are not modelled, because floats and the clock are outside the model.
- Schema.Synth: a `$ref` chain deeper than the fuel ends in `{}`, where Python would raise RecursionError on a cyclic table. `Schema.SynthFuel` shows that the fuel does not matter for acyclic tables.
- RequestBuilder.JoinUrl: `urljoin(base + '/', path.lstrip('/'))` is modelled as concatenation. The two match when all of the following hold:
  - the base's scheme is empty, or lower-case and one `urljoin` resolves against (`http`, `https` and the like); a base such as `localhost:8080/api` parses with scheme `localhost`, and `urljoin` returns the path alone;
  - neither part contains a tab, CR or LF, and neither starts with a control character or a space; `urlsplit` deletes or strips these;
  - any `[` or `]` in the host is balanced; an unbalanced one makes `urlsplit` raise ValueError, which the model does not raise;
  - the base has no query or fragment, does not end in `/` and has no empty path segment;
  - the stripped path has no scheme-like prefix, no empty segment (`//`) and no `.` or `..` segment.
  Outside these conditions `urljoin` lower-cases the scheme, drops empty segments, resolves dot segments, or raises.
- PyOps.Str: `str()` of a list or a dict gives `Raise(Unmodelled)` instead of Python's repr text. This affects a path-parameter sample, the f-string display label of a list or dict summary (Listing.DisplayLabel), and a list or dict `scheme`, `host` or `basePath` in the base-URL f-string (Operations.BaseUrl).
- PyOps.DictKey: a query, header or form parameter whose `name` is missing or is an int, a bool or `None` gives `Raise(Unmodelled)` when it is stored into a dict. Python would store the sample under that key, but the model's dicts are keyed by strings. A list or dict name raises TypeError, as in Python. On a list body (RequestBuilder.FormDataListBody) an int or bool name is a list index and is modelled exactly.
- RequestBuilder.ApplyParam: values are immutable. In Python a sample taken from a schema's `example` or `enum[0]` is that very dict, so a later form parameter's `body[name] = sample` (swagger_API.py lines 193-197) also writes into the document, and later samples of the same schema see the added key. The model does not reflect that sharing.
- Listing.SummaryFold: a truthy number or boolean used as a file name is not stored, because a lookup by string file name can never find it.
- Text.Lower: only ASCII letters are mapped, and Text.Upper likewise.
- JSON numbers are integers only; floats are not modelled.
- Dicts with duplicate keys cannot come from parsed JSON and are not considered.
- Behaviours worth noting, modelled as the code has them:
  - a `$ref` can raise: on a non-string reference, or on a parsed one against a truthy table that is not a dict;
  - `extract_body_count` returns 0, not null, for a body that is not a list;
  - an empty `enum` list makes the synthesizer raise IndexError;
  - the synthesizer uses `example` only when it is truthy.

=== FILE: json.dfy ===
/** The JSON values the scripts manipulate, as Python holds them after
    `json.load` / `r.json()`: `None`, booleans, integers, strings, lists and
    dicts. A dict is an ordered association list, because Python dicts keep
    insertion order; assigning to a key that is already present updates its
    value in place. Floating-point numbers are not part of this model. */
module JsonModel {

  datatype Option<+T> = None | Some(value: T)

  datatype Json =
    | JNull
    | JBool(b: bool)
    | JInt(i: int)
    | JStr(s: string)
    | JArr(items: seq<Json>)
    | JObj(fields: seq<(string, Json)>)

  type Fields = seq<(string, Json)>

  /** Python truthiness (`if x:` / `not x` / `x or y`). */
  predicate Truthy(j: Json) {
    match j
    case JNull => false
    case JBool(b) => b
    case JInt(i) => i != 0
    case JStr(s) => |s| > 0
    case JArr(items) => |items| > 0
    case JObj(fields) => |fields| > 0
  }

  /** Python's falsy values: `None`, `False`, zero, and the empty string,
      list and dict; everything else is truthy. */
  lemma FalsyValues(j: Json)
    ensures !Truthy(j) <==> j in {JNull, JBool(false), JInt(0), JStr(""), JArr([]), JObj([])}
  {
  }

  /** A termination measure: every value nested in `j` is strictly smaller. */
  function Size(j: Json): nat {
    match j
    case JArr(items) => 1 + ItemsSize(items)
    case JObj(fields) => 1 + FieldsSize(fields)
    case _ => 1
  }

  function ItemsSize(items: seq<Json>): nat {
    if |items| == 0 then 0 else Size(items[0]) + ItemsSize(items[1..])
  }

  function FieldsSize(fields: Fields): nat {
    if |fields| == 0 then 0
    else
      var (_, v) := fields[0];
      assert v < fields[0];
      1 + Size(v) + FieldsSize(fields[1..])
  }

  /** The keys of a dict, in insertion order. */
  function Keys(fields: Fields): (ks: seq<string>)
    ensures |ks| == |fields|
    ensures forall i :: 0 <= i < |fields| ==> ks[i] == fields[i].0
  {
    if |fields| == 0 then [] else [fields[0].0] + Keys(fields[1..])
  }

  /** No key occurs twice: every dict Python builds or parses has this shape. */
  predicate DistinctKeys(fields: Fields) {
    forall i, j :: 0 <= i < j < |fields| ==> fields[i].0 != fields[j].0
  }

  /** `d.get(k)` on a dict: the value stored under `k`, if any. */
  function Lookup(fields: Fields, k: string): (r: Option<Json>)
    ensures r.Some? ==> (k, r.value) in fields
    ensures r.Some? ==> Size(r.value) < FieldsSize(fields)
  {
    if |fields| == 0 then None
    else if fields[0].0 == k then Some(fields[0].1)
    else Lookup(fields[1..], k)
  }

  /** A lookup finds the first entry under its key. */
  lemma {:induction false} LookupAt(fields: Fields, i: nat, k: string)
    requires i < |fields| && fields[i].0 == k
    requires forall j :: 0 <= j < i ==> fields[j].0 != k
    ensures Lookup(fields, k) == Some(fields[i].1)
    decreases i
  {
    if i > 0 {
      assert fields[0].0 != k;
      assert fields[1..][i - 1] == fields[i];
      LookupAt(fields[1..], i - 1, k);
    }
  }

  /** `k in d` on a dict. */
  predicate HasKey(fields: Fields, k: string) {
    Lookup(fields, k).Some?
  }

  lemma {:induction false} HasKeyKeys(fields: Fields, k: string)
    ensures HasKey(fields, k) <==> k in Keys(fields)
  {
    if |fields| > 0 {
      HasKeyKeys(fields[1..], k);
      assert Keys(fields) == [fields[0].0] + Keys(fields[1..]);
    }
  }

  /** `d.get(k, default)` on a dict. */
  function GetOr(fields: Fields, k: string, default: Json): (r: Json)
    ensures !HasKey(fields, k) ==> r == default
    ensures HasKey(fields, k) ==> Lookup(fields, k) == Some(r)
  {
    match Lookup(fields, k)
    case Some(v) => v
    case None => default
  }

  /** A value read from a non-empty dict, or a one-node default, is smaller
      than the dict. */
  lemma GetOrSmaller(fields: Fields, k: string, default: Json)
    requires |fields| > 0 && Size(default) == 1
    ensures Size(GetOr(fields, k, default)) < 1 + FieldsSize(fields)
  {
    assert FieldsSize(fields) >= 1;
  }

  /** `d[k] = v`: an existing key keeps its position, a new key goes last. */
  function Set(fields: Fields, k: string, v: Json): (r: Fields)
    ensures Lookup(r, k) == Some(v)
    ensures forall k' :: k' != k ==> Lookup(r, k') == Lookup(fields, k')
  {
    if |fields| == 0 then [(k, v)]
    else if fields[0].0 == k then [(k, v)] + fields[1..]
    else [fields[0]] + Set(fields[1..], k, v)
  }

  /** An existing key keeps its position; a new key goes last. */
  lemma {:induction false} SetKeys(fields: Fields, k: string, v: Json)
    ensures HasKey(fields, k) ==> Keys(Set(fields, k, v)) == Keys(fields)
    ensures !HasKey(fields, k) ==> Keys(Set(fields, k, v)) == Keys(fields) + [k]
    decreases |fields|
  {
    if |fields| > 0 {
      var r := Set(fields, k, v);
      if fields[0].0 == k {
        assert r[1..] == fields[1..];
        assert Keys(r) == [k] + Keys(fields[1..]);
        assert Keys(fields) == [k] + Keys(fields[1..]);
      } else {
        var rest := Set(fields[1..], k, v);
        SetKeys(fields[1..], k, v);
        assert r[1..] == rest;
        assert Keys(r) == [fields[0].0] + Keys(rest);
        assert Keys(fields) == [fields[0].0] + Keys(fields[1..]);
      }
    }
  }

  lemma {:induction false} LookupDistinct(fields: Fields, k: string, v: Json)
    requires DistinctKeys(fields)
    requires (k, v) in fields
    ensures Lookup(fields, k) == Some(v)
  {
    if fields[0] != (k, v) {
      assert fields[0].0 != k by {
        var i :| 0 <= i < |fields| && fields[i] == (k, v);
        assert i > 0;
      }
      assert (k, v) in fields[1..] by {
        var i :| 0 <= i < |fields| && fields[i] == (k, v);
        assert fields[1..][i - 1] == (k, v);
      }
      LookupDistinct(fields[1..], k, v);
    }
  }

  /** Assigning a key that is not yet present appends it. */
  lemma {:induction false} SetFresh(fields: Fields, k: string, v: Json)
    requires !HasKey(fields, k)
    ensures Set(fields, k, v) == fields + [(k, v)]
  {
    if |fields| > 0 {
      SetFresh(fields[1..], k, v);
      assert fields == [fields[0]] + fields[1..];
    }
  }

  /** Appending an entry leaves every earlier key's lookup alone. */
  lemma {:induction false} LookupAppend(fields: Fields, x: string, v: Json, k: string)
    ensures Lookup(fields + [(x, v)], k)
         == if HasKey(fields, k) then Lookup(fields, k) else if k == x then Some(v) else None
    decreases |fields|
  {
    if |fields| > 0 {
      assert (fields + [(x, v)])[1..] == fields[1..] + [(x, v)];
      LookupAppend(fields[1..], x, v, k);
    }
  }

  lemma DistinctKeysAppend(fields: Fields, k: string, v: Json)
    requires DistinctKeys(fields)
    requires !HasKey(fields, k)
    ensures DistinctKeys(fields + [(k, v)])
  {
    HasKeyKeys(fields, k);
    var r := fields + [(k, v)];
    forall i, j | 0 <= i < j < |r|
      ensures r[i].0 != r[j].0
    {
      if j == |fields| {
        assert Keys(fields)[i] == fields[i].0;
      }
    }
  }
}

=== FILE: listing.dfy ===
/** The listing script: the summary map read from a source folder's
    `manifest.json`, the response-size count of each endpoint file, the
    display label, the file filter, and the `filelist.json` entries in
    source order. Loaded files are inputs (`None` for a file that failed to
    load) and a folder is its listing in `os.listdir` order. */
module Listing {
  import opened JsonModel
  import opened Text
  import opened PyOps
  import Operations

  /** The source folders, in the order they are visited. */
  const Sources: seq<string> := ["taifex", "tpex", "twse"]

  /* ---------------------------------------------------------------------- */
  /* The summary map                                                        */
  /* ---------------------------------------------------------------------- */

  /** Lines 20-24: the entry list is a dict's list-valued `files` entry or the
      loaded list itself; anything else, a failed load included, gives none. */
  function ManifestEntries(mani: Option<Json>): (r: seq<Json>)
    ensures mani.None? ==> r == []
    ensures mani.Some? && mani.value.JArr? ==> r == mani.value.items
    ensures |r| > 0 ==> mani.Some? && (mani.value.JArr? || mani.value.JObj?)
  {
    match mani
    case Some(JObj(fields)) =>
      (match Lookup(fields, "files")
       case Some(JArr(items)) => items
       case _ => [])
    case Some(JArr(items)) => items
    case _ => []
  }

  /** A dict manifest contributes its `files` list when that is a list, and
      nothing otherwise. */
  lemma ManifestFiles(mani: Json)
    requires mani.JObj?
    ensures ManifestEntries(Some(mani))
         == match Lookup(mani.fields, "files")
            case Some(JArr(items)) => items
            case _ => []
  {
  }

  /** `e.get('file') or e.get('path')`. */
  function EntryName(fields: Fields): (r: Json)
    ensures Truthy(GetOr(fields, "file", JNull)) ==> r == GetOr(fields, "file", JNull)
    ensures !Truthy(GetOr(fields, "file", JNull)) ==> r == GetOr(fields, "path", JNull)
    ensures Truthy(r) <==> Truthy(GetOr(fields, "file", JNull)) || Truthy(GetOr(fields, "path", JNull))
  {
    var f := GetOr(fields, "file", JNull);
    if Truthy(f) then f else GetOr(fields, "path", JNull)
  }

  /** The `(name, summary)` pair an entry offers: only a dict entry whose
      name and summary are both truthy offers one. */
  function Contribution(e: Json): (r: Option<(Json, Json)>)
    ensures r.Some? ==> e.JObj? && Truthy(r.value.0) && Truthy(r.value.1)
    ensures r.Some? ==> r.value.1 == GetOr(e.fields, "summary", JNull)
  {
    if !e.JObj? then None
    else
      var name := EntryName(e.fields);
      var summ := GetOr(e.fields, "summary", JNull);
      if Truthy(name) && Truthy(summ) then Some((name, summ)) else None
  }

  /** The entry files a summary under the string `name`. */
  predicate Names(e: Json, name: string) {
    Contribution(e).Some? && Contribution(e).value.0 == JStr(name)
  }

  /** The entry's name is a list or a dict: storing it as a key raises. */
  predicate Unhashable(e: Json) {
    Contribution(e).Some? && (Contribution(e).value.0.JArr? || Contribution(e).value.0.JObj?)
  }

  /** Lines 25-32, continuing from the map `acc`. A truthy name that is a
      number or a boolean is a key no lookup by file name can find; it is not
      kept. */
  function SummaryFold(entries: seq<Json>, acc: Fields): (r: Result<Fields>)
    ensures r.Raise? ==> r == Raise(TypeError)
    decreases |entries|
  {
    if |entries| == 0 then Ok(acc)
    else
      var next :- match Contribution(entries[0])
        case None => Ok(acc)
        case Some((JStr(k), v)) => Ok(Set(acc, k, v))
        case Some((JArr(_), _)) => Raise(TypeError)
        case Some((JObj(_), _)) => Raise(TypeError)
        case Some(_) => Ok(acc);
      SummaryFold(entries[1..], next)
  }

  /** `get_summary_map` on the loaded manifest. */
  function GetSummaryMap(mani: Option<Json>): (r: Result<Fields>)
    ensures mani.None? ==> r == Ok([])
    ensures r.Raise? ==> r == Raise(TypeError)
  {
    SummaryFold(ManifestEntries(mani), [])
  }

  /** The fold raises exactly when some entry's name is unhashable. */
  lemma {:induction false} SummaryFoldRaises(entries: seq<Json>, acc: Fields)
    ensures SummaryFold(entries, acc).Raise? <==> exists i :: 0 <= i < |entries| && Unhashable(entries[i])
    decreases |entries|
  {
    if |entries| > 0 {
      var next := match Contribution(entries[0])
        case Some((JStr(k), v)) => Set(acc, k, v)
        case _ => acc;
      if Unhashable(entries[0]) {
        assert SummaryFold(entries, acc).Raise?;
      } else {
        assert SummaryFold(entries, acc) == SummaryFold(entries[1..], next);
        SummaryFoldRaises(entries[1..], next);
        assert forall i :: 1 <= i < |entries| ==> entries[1..][i - 1] == entries[i];
        if exists i :: 1 <= i < |entries| && Unhashable(entries[i]) {
          var i :| 1 <= i < |entries| && Unhashable(entries[i]);
          assert Unhashable(entries[1..][i - 1]);
        }
      }
    }
  }

  /** The map after an entry whose name is not unhashable. */
  function Stored(e: Json, acc: Fields): (r: Fields)
    ensures forall name :: Lookup(r, name)
              == if Names(e, name) then Some(Contribution(e).value.1) else Lookup(acc, name)
  {
    match Contribution(e)
    case Some((JStr(k), v)) => Set(acc, k, v)
    case _ => acc
  }

  lemma SummaryFoldStep(entries: seq<Json>, acc: Fields)
    requires |entries| > 0 && !Unhashable(entries[0])
    ensures SummaryFold(entries, acc) == SummaryFold(entries[1..], Stored(entries[0], acc))
  {
  }

  /** A name no entry mentions keeps the value it had before the fold. */
  lemma {:induction false} SummaryFoldUntouched(entries: seq<Json>, acc: Fields, name: string, m: Fields)
    requires SummaryFold(entries, acc) == Ok(m)
    requires forall i :: 0 <= i < |entries| ==> !Names(entries[i], name)
    ensures Lookup(m, name) == Lookup(acc, name)
    decreases |entries|
  {
    if |entries| > 0 {
      SummaryFoldRaises(entries, acc);
      SummaryFoldStep(entries, acc);
      var next := Stored(entries[0], acc);
      assert forall i :: 1 <= i < |entries| ==> entries[1..][i - 1] == entries[i];
      SummaryFoldUntouched(entries[1..], next, name, m);
    }
  }

  /** Later entries overwrite earlier ones: a lookup finds the summary of the
      last entry that names the file. */
  lemma {:induction false} SummaryFoldLastWins(entries: seq<Json>, acc: Fields, name: string, m: Fields, i: nat)
    requires SummaryFold(entries, acc) == Ok(m)
    requires i < |entries| && Names(entries[i], name)
    requires forall j :: i < j < |entries| ==> !Names(entries[j], name)
    ensures Lookup(m, name) == Some(Contribution(entries[i]).value.1)
    decreases |entries|
  {
    SummaryFoldRaises(entries, acc);
    SummaryFoldStep(entries, acc);
    var next := Stored(entries[0], acc);
    assert forall j :: 1 <= j < |entries| ==> entries[1..][j - 1] == entries[j];
    if i == 0 {
      SummaryFoldUntouched(entries[1..], next, name, m);
    } else {
      SummaryFoldLastWins(entries[1..], next, name, m, i - 1);
    }
  }

  /** The summary map of a manifest: a file name maps to the summary of the
      last entry naming it, every stored summary is truthy, and a name no
      entry offers is absent. */
  lemma SummaryMapLookup(mani: Option<Json>, name: string, m: Fields)
    requires GetSummaryMap(mani) == Ok(m)
    ensures Lookup(m, name).Some? ==> Truthy(Lookup(m, name).value)
    ensures Lookup(m, name).Some? <==>
              exists i :: 0 <= i < |ManifestEntries(mani)| && Names(ManifestEntries(mani)[i], name)
  {
    var es := ManifestEntries(mani);
    if exists i :: 0 <= i < |es| && Names(es[i], name) {
      var p := (e: Json) => Names(e, name);
      var k :| 0 <= k < |es| && Names(es[k], name);
      assert p(es[k]);
      var i := LastWhere(es, p);
      SummaryFoldLastWins(es, [], name, m, i);
    } else {
      SummaryFoldUntouched(es, [], name, m);
    }
  }

  /** The last index of an element satisfying `p`. */
  lemma LastWhere<T>(s: seq<T>, p: T -> bool) returns (i: nat)
    requires exists i :: 0 <= i < |s| && p(s[i])
    ensures i < |s| && p(s[i])
    ensures forall j :: i < j < |s| ==> !p(s[j])
    decreases |s|
  {
    if p(s[|s| - 1]) {
      i := |s| - 1;
    } else {
      var k :| 0 <= k < |s| && p(s[k]);
      var front := s[..|s| - 1];
      assert p(front[k]);
      i := LastWhere(front, p);
      assert forall j :: i < j < |s| - 1 ==> s[j] == front[j];
    }
  }

  /* ---------------------------------------------------------------------- */
  /* Manifest records written by the download script                        */
  /* ---------------------------------------------------------------------- */

  /** The manifest record the download script writes for one endpoint
      (swagger_API.py, lines 304-311). */
  function ManifestRecord(file: string, path: string, verb: string, operationId: Json, summary: Json, status: Json): (r: Json)
    ensures r.JObj? && |r.fields| == 6
    ensures Keys(r.fields) == ["file", "path", "method", "operationId", "summary", "status_code"]
  {
    JObj([("file", JStr(file)), ("path", JStr(path)), ("method", JStr(verb)),
          ("operationId", operationId), ("summary", summary), ("status_code", status)])
  }

  /** A written record files a truthy summary under its file name, and
      nothing otherwise. */
  lemma ManifestRecordNames(file: string, path: string, verb: string, operationId: Json, summary: Json, status: Json, name: string)
    requires |file| > 0
    ensures Names(ManifestRecord(file, path, verb, operationId, summary, status), name)
        <==> Truthy(summary) && name == file
    ensures !Unhashable(ManifestRecord(file, path, verb, operationId, summary, status))
  {
    var r := ManifestRecord(file, path, verb, operationId, summary, status);
    LookupAt(r.fields, 0, "file");
    LookupAt(r.fields, 4, "summary");
    assert EntryName(r.fields) == JStr(file);
    assert Contribution(r) == if Truthy(summary) then Some((JStr(file), summary)) else None;
  }

  /* ---------------------------------------------------------------------- */
  /* Response count                                                         */
  /* ---------------------------------------------------------------------- */

  /** `extract_body_count(data)`: the length of `data["response"]["body"]`
      when both levels are dicts and the body is a list, else 0. */
  function ExtractBodyCount(data: Json): (r: nat)
    ensures !data.JObj? ==> r == 0
    ensures r > 0 ==> HasKey(data.fields, "response")
  {
    if !data.JObj? then 0
    else
      match Lookup(data.fields, "response")
      case Some(JObj(resp)) =>
        (match Lookup(resp, "body")
         case Some(JArr(body)) => |body|
         case _ => 0)
      case _ => 0
  }

  /** For any dict document, read with `.get` as the script does: the count
      is the length of `data.get('response').get('body')` when the response
      is a dict and the body a list, and 0 in every other case. */
  lemma ExtractBodyCountOfDict(data: Json)
    requires data.JObj?
    ensures var resp := GetOr(data.fields, "response", JNull);
            var body := if resp.JObj? then GetOr(resp.fields, "body", JNull) else JNull;
            ExtractBodyCount(data) == if body.JArr? then |body.items| else 0
  {
  }

  /** The response record of `execute_request` (swagger_API.py, line 240). */
  function ResponseRecord(status: Json, headers: Json, body: Json): (r: Json)
    ensures r.JObj?
    ensures Keys(r.fields) == ["status_code", "headers", "body"]
  {
    JObj([("status_code", status), ("headers", headers), ("body", body)])
  }

  /** The endpoint file the download script writes (swagger_API.py, lines
      291-298). */
  function EndpointDocument(path: string, verb: string, operationId: Json, summary: Json, request: Json, response: Json): (r: Json)
    ensures r.JObj?
    ensures Keys(r.fields) == ["path", "method", "operationId", "summary", "request", "response"]
  {
    JObj([("path", JStr(path)), ("method", JStr(verb)), ("operationId", operationId),
          ("summary", summary), ("request", request), ("response", response)])
  }

  /** Reading back a written endpoint file counts the items of a list body,
      and gives 0 for any other body or for a failed request. */
  lemma BodyCountOfEndpoint(path: string, verb: string, operationId: Json, summary: Json, request: Json,
                            status: Json, headers: Json, body: Json)
    ensures ExtractBodyCount(EndpointDocument(path, verb, operationId, summary, request,
                                              ResponseRecord(status, headers, body)))
         == if body.JArr? then |body.items| else 0
  {
    var resp := ResponseRecord(status, headers, body);
    var doc := EndpointDocument(path, verb, operationId, summary, request, resp);
    LookupAt(doc.fields, 5, "response");
    LookupAt(resp.fields, 2, "body");
  }

  /** A request that failed is recorded as `{"error": ...}`; its count is 0. */
  lemma BodyCountOfError(path: string, verb: string, operationId: Json, summary: Json, request: Json, message: string)
    ensures ExtractBodyCount(EndpointDocument(path, verb, operationId, summary, request,
                                              JObj([("error", JStr(message))]))) == 0
  {
    var doc := EndpointDocument(path, verb, operationId, summary, request, JObj([("error", JStr(message))]));
    var err := JObj([("error", JStr(message))]);
    LookupAt(doc.fields, 5, "response");
  }

  /** Line 67: no count for a file `safe_load_json` gives `None` for, that is,
      a file that failed to load (`data` is `None`) or whose content is JSON
      `null`. */
  function Count(data: Option<Json>): (r: Option<nat>)
    ensures r.None? <==> data.None? || data == Some(JNull)
    ensures data.Some? && data != Some(JNull) ==> r == Some(ExtractBodyCount(data.value))
  {
    match data
    case None => None
    case Some(JNull) => None
    case Some(d) => Some(ExtractBodyCount(d))
  }

  /** The count of a saved endpoint document is its body's length when the
      body is a list, and 0 otherwise. */
  lemma CountOfEndpoint(path: string, verb: string, operationId: Json, summary: Json, request: Json,
                        status: Json, headers: Json, body: Json)
    ensures Count(Some(EndpointDocument(path, verb, operationId, summary, request,
                                        ResponseRecord(status, headers, body))))
         == Some(if body.JArr? then |body.items| else 0)
  {
    BodyCountOfEndpoint(path, verb, operationId, summary, request, status, headers, body);
  }

  /* ---------------------------------------------------------------------- */
  /* Display label and file filter                                          */
  /* ---------------------------------------------------------------------- */

  /** Line 70: `f"{summary} ({name})"` for a truthy summary, else the name. */
  function DisplayLabel(summary: Json, name: string): (r: Result<string>)
    ensures !Truthy(summary) ==> r == Ok(name)
    ensures Truthy(summary) && r.Ok? ==> EndsWith(r.value, " (" + name + ")")
    ensures summary.JStr? && |summary.s| > 0 ==> r.Ok? && StartsWith(r.value, summary.s)
  {
    if Truthy(summary) then
      var s :- Str(summary);
      var shown := s + " (" + name + ")";
      assert shown[|shown| - |" (" + name + ")"|..] == " (" + name + ")";
      assert shown[..|s|] == s;
      Ok(shown)
    else Ok(name)
  }

  /** The label of a string summary splits back into the summary and the
      file name. */
  lemma DisplayLabelSplits(summary: string, name: string)
    requires |summary| > 0
    ensures DisplayLabel(JStr(summary), name).Ok?
    ensures var l := DisplayLabel(JStr(summary), name).value;
              |l| == |summary| + |name| + 3
              && l[..|summary|] == summary
              && l[|summary| + 2..|l| - 1] == name
  {
    var l := summary + " (" + name + ")";
    assert l[|summary| + 2..|l| - 1] == name;
  }

  /** Lines 54-57. The `.json` test ignores case; the manifest test does not. */
  predicate IsListed(name: string) {
    EndsWith(Lower(name), ".json") && name != "manifest.json"
  }

  /** Every endpoint file the download script writes is listed. */
  lemma EndpointFileListed(verb: string, path: string)
    ensures IsListed(Operations.OutputFileName(verb, path))
  {
    var f := Operations.OutputFileName(verb, path);
    LowerKeepsJson(f);
    var u := Upper(verb);
    assert f[..|u| + 1] == u + "_";
    if |u| > 0 {
      assert f[0] == UpperChar(verb[0]);
    } else {
      assert f[0] == '_';
    }
    assert f[0] != 'm';
  }

  /** Lower-casing keeps a `.json` ending. */
  lemma LowerKeepsJson(f: string)
    requires EndsWith(f, ".json")
    ensures EndsWith(Lower(f), ".json")
  {
    var l := Lower(f);
    var n := |f|;
    assert f[n - 5..] == ".json";
    forall k | 0 <= k < 5
      ensures l[n - 5 + k] == ".json"[k]
    {
      assert f[n - 5 + k] == f[n - 5..][k];
    }
    assert l[n - 5..] == ".json";
  }

  /* ---------------------------------------------------------------------- */
  /* filelist.json entries                                                  */
  /* ---------------------------------------------------------------------- */

  /** A source folder: its loaded `manifest.json` and its files in listing
      order, each with its loaded content. */
  datatype Folder = Folder(manifest: Option<Json>, files: seq<(string, Option<Json>)>)

  /** One `filelist.json` entry, less its size. A summary the map does not
      hold is `None`, and so is the count of a file that failed to load. */
  datatype Entry = Entry(src: string, file: string, summary: Json, display: string, count: Option<nat>)

  /** Lines 69-78 for one listed file. */
  function FileEntry(src: string, summaries: Fields, name: string, data: Option<Json>): (r: Result<Entry>)
    ensures r.Ok? ==> r.value.src == src && r.value.file == name && r.value.count == Count(data)
    ensures r.Ok? ==> r.value.summary == GetOr(summaries, name, JNull)
    ensures r.Ok? <==> DisplayLabel(GetOr(summaries, name, JNull), name).Ok?
    ensures r.Ok? ==> DisplayLabel(GetOr(summaries, name, JNull), name) == Ok(r.value.display)
  {
    var summary := GetOr(summaries, name, JNull);
    var display :- DisplayLabel(summary, name);
    Ok(Entry(src, name, summary, display, Count(data)))
  }

  /** Lines 53-78 over a folder's listing. */
  function FileEntries(src: string, summaries: Fields, files: seq<(string, Option<Json>)>): (r: Result<seq<Entry>>)
    ensures r.Ok? ==> |r.value| <= |files|
    decreases |files|
  {
    if |files| == 0 then Ok([])
    else
      var (name, data) := files[0];
      var first :- if IsListed(name) then
                     var e :- FileEntry(src, summaries, name, data); Ok([e])
                   else Ok([]);
      var rest :- FileEntries(src, summaries, files[1..]);
      Ok(first + rest)
  }

  /** The listed files of a folder, in listing order. */
  function ListedNames(files: seq<(string, Option<Json>)>): (r: seq<string>)
    ensures forall n :: n in r ==> IsListed(n)
  {
    if |files| == 0 then []
    else if IsListed(files[0].0) then [files[0].0] + ListedNames(files[1..])
    else ListedNames(files[1..])
  }

  /** Listing a concatenation lists each part in turn. */
  lemma {:induction false} ListedNamesAppend(a: seq<(string, Option<Json>)>, b: seq<(string, Option<Json>)>)
    ensures ListedNames(a + b) == ListedNames(a) + ListedNames(b)
    decreases |a|
  {
    if |a| == 0 {
      assert a + b == b;
    } else {
      assert (a + b)[0] == a[0] && (a + b)[1..] == a[1..] + b;
      ListedNamesAppend(a[1..], b);
      if IsListed(a[0].0) {
        assert [a[0].0] + (ListedNames(a[1..]) + ListedNames(b)) == ([a[0].0] + ListedNames(a[1..])) + ListedNames(b);
      }
    }
  }

  /** A single file is listed exactly when it passes the filter. */
  lemma ListedNamesOne(f: (string, Option<Json>))
    ensures ListedNames([f]) == if IsListed(f.0) then [f.0] else []
  {
    assert [f][1..] == [];
  }

  /** Every file that passes the filter is listed. */
  lemma {:induction false} ListedNamesComplete(files: seq<(string, Option<Json>)>, i: nat)
    requires i < |files| && IsListed(files[i].0)
    ensures files[i].0 in ListedNames(files)
    decreases i
  {
    if i == 0 {
      assert ListedNames(files) == [files[0].0] + ListedNames(files[1..]);
    } else {
      assert files[1..][i - 1] == files[i];
      ListedNamesComplete(files[1..], i - 1);
      if IsListed(files[0].0) {
        assert ListedNames(files) == [files[0].0] + ListedNames(files[1..]);
      } else {
        assert ListedNames(files) == ListedNames(files[1..]);
      }
    }
  }

  /** One entry per listed file, in listing order, each tagged with its
      source. */
  lemma {:induction false} FileEntriesNames(src: string, summaries: Fields, files: seq<(string, Option<Json>)>, es: seq<Entry>)
    requires FileEntries(src, summaries, files) == Ok(es)
    ensures |es| == |ListedNames(files)|
    ensures forall k :: 0 <= k < |es| ==> es[k].file == ListedNames(files)[k] && es[k].src == src
    decreases |files|
  {
    if |files| > 0 {
      var (name, data) := files[0];
      var rest := FileEntries(src, summaries, files[1..]).value;
      var names := ListedNames(files[1..]);
      FileEntriesNames(src, summaries, files[1..], rest);
      if IsListed(name) {
        var e := FileEntry(src, summaries, name, data).value;
        assert es == [e] + rest;
        assert ListedNames(files) == [name] + names;
        forall k | 0 <= k < |es|
          ensures es[k].file == ListedNames(files)[k] && es[k].src == src
        {
          if k > 0 {
            assert es[k] == rest[k - 1] && ListedNames(files)[k] == names[k - 1];
          }
        }
      } else {
        assert es == rest;
        assert ListedNames(files) == names;
      }
    }
  }

  /** Every entry carries the count and summary of the file it names. */
  lemma {:induction false} FileEntriesContent(src: string, summaries: Fields, files: seq<(string, Option<Json>)>, es: seq<Entry>, e: Entry)
    requires FileEntries(src, summaries, files) == Ok(es) && e in es
    ensures IsListed(e.file)
    ensures e.summary == GetOr(summaries, e.file, JNull)
    ensures exists i :: 0 <= i < |files| && files[i].0 == e.file && e.count == Count(files[i].1)
    decreases |files|
  {
    var (name, data) := files[0];
    var rest := FileEntries(src, summaries, files[1..]).value;
    if IsListed(name) && e == FileEntry(src, summaries, name, data).value {
      assert files[0].0 == e.file && e.count == Count(files[0].1);
    } else {
      if IsListed(name) {
        assert es == [FileEntry(src, summaries, name, data).value] + rest;
      } else {
        assert es == rest;
      }
      FileEntriesContent(src, summaries, files[1..], rest, e);
      var i :| 0 <= i < |files[1..]| && files[1..][i].0 == e.file && e.count == Count(files[1..][i].1);
      assert files[1..][i] == files[i + 1];
    }
  }

  /** Lines 49-78 for one source: a missing folder gives no entries. */
  function FolderEntries(src: string, folders: map<string, Folder>): (r: Result<seq<Entry>>)
    ensures src !in folders ==> r == Ok([])
    ensures src in folders && r.Ok? ==> |r.value| == |ListedNames(folders[src].files)|
    ensures src in folders && r.Ok? ==>
              forall k :: 0 <= k < |r.value| ==> r.value[k].file == ListedNames(folders[src].files)[k] && r.value[k].src == src
  {
    if src !in folders then Ok([])
    else
      var folder := folders[src];
      var summaries :- GetSummaryMap(folder.manifest);
      var es :- FileEntries(src, summaries, folder.files);
      FileEntriesNames(src, summaries, folder.files, es);
      Ok(es)
  }

  /** Lines 47-78 over the given sources, in order. */
  function SourcesEntries(srcs: seq<string>, folders: map<string, Folder>): (r: Result<seq<Entry>>)
    decreases |srcs|
  {
    if |srcs| == 0 then Ok([])
    else
      var first :- FolderEntries(srcs[0], folders);
      var rest :- SourcesEntries(srcs[1..], folders);
      Ok(first + rest)
  }

  /** The `files` list of `filelist.json`. */
  function FileList(folders: map<string, Folder>): (r: Result<seq<Entry>>)
    ensures r.Ok? ==> forall e :: e in r.value ==> e.src in Sources && e.src in folders
  {
    var r := SourcesEntries(Sources, folders);
    if r.Ok? then SourcesEntriesAllTagged(Sources, folders, r.value); r else r
  }

  /** Every entry of a walk is tagged with one of the walked sources. */
  lemma SourcesEntriesAllTagged(srcs: seq<string>, folders: map<string, Folder>, es: seq<Entry>)
    requires SourcesEntries(srcs, folders) == Ok(es)
    ensures forall e :: e in es ==> e.src in srcs && e.src in folders
  {
    forall e | e in es
      ensures e.src in srcs && e.src in folders
    {
      SourcesEntriesTagged(srcs, folders, es, e);
    }
  }

  /** Every listed file of a walked source that exists appears in the walk,
      tagged with that source. */
  lemma {:induction false} SourcesEntriesComplete(srcs: seq<string>, folders: map<string, Folder>, es: seq<Entry>,
                                                  src: string, name: string)
    requires SourcesEntries(srcs, folders) == Ok(es)
    requires src in srcs && src in folders && name in ListedNames(folders[src].files)
    ensures exists e :: e in es && e.file == name && e.src == src
    decreases |srcs|
  {
    var first := FolderEntries(srcs[0], folders).value;
    var rest := SourcesEntries(srcs[1..], folders).value;
    assert es == first + rest;
    if srcs[0] == src {
      var names := ListedNames(folders[src].files);
      var k :| 0 <= k < |names| && names[k] == name;
      assert first[k].file == name && first[k].src == src;
      assert first[k] in es;
    } else {
      assert src in srcs[1..] by {
        var j :| 0 <= j < |srcs| && srcs[j] == src;
        assert srcs[1..][j - 1] == src;
      }
      SourcesEntriesComplete(srcs[1..], folders, rest, src, name);
      var e :| e in rest && e.file == name && e.src == src;
      assert e in es;
    }
  }

  /** Lines 48-78: every listed file of an existing source folder appears in
      the file list under that source. */
  lemma FileListComplete(folders: map<string, Folder>, src: string, name: string)
    requires FileList(folders).Ok?
    requires src in Sources && src in folders && name in ListedNames(folders[src].files)
    ensures exists e :: e in FileList(folders).value && e.file == name && e.src == src
  {
    SourcesEntriesComplete(Sources, folders, FileList(folders).value, src, name);
  }

  /** Every entry of the file list comes from a folder that exists, under its
      own source name. */
  lemma {:induction false} SourcesEntriesTagged(srcs: seq<string>, folders: map<string, Folder>, es: seq<Entry>, e: Entry)
    requires SourcesEntries(srcs, folders) == Ok(es) && e in es
    ensures e.src in srcs && e.src in folders
    decreases |srcs|
  {
    var first := FolderEntries(srcs[0], folders).value;
    var rest := SourcesEntries(srcs[1..], folders).value;
    assert es == first + rest;
    if e in first {
      var folder := folders[srcs[0]];
      var summaries := GetSummaryMap(folder.manifest).value;
      var k :| 0 <= k < |first| && first[k] == e;
      FileEntriesNames(srcs[0], summaries, folder.files, first);
    } else {
      SourcesEntriesTagged(srcs[1..], folders, rest, e);
    }
  }

  /** The sources are visited in order: the file list is taifex's entries,
      then tpex's, then twse's. */
  lemma FileListOrder(folders: map<string, Folder>)
    requires FolderEntries("taifex", folders).Ok? && FolderEntries("tpex", folders).Ok?
    requires FolderEntries("twse", folders).Ok?
    ensures FileList(folders)
         == Ok(FolderEntries("taifex", folders).value
               + (FolderEntries("tpex", folders).value + FolderEntries("twse", folders).value))
  {
    assert Sources[0] == "taifex" && Sources[1] == "tpex" && Sources[2] == "twse";
    SourcesEntriesThree(Sources, folders);
  }

  /** The walk over three sources concatenates their entries. */
  lemma SourcesEntriesThree(srcs: seq<string>, folders: map<string, Folder>)
    requires |srcs| == 3
    requires FolderEntries(srcs[0], folders).Ok? && FolderEntries(srcs[1], folders).Ok?
    requires FolderEntries(srcs[2], folders).Ok?
    ensures SourcesEntries(srcs, folders)
         == Ok(FolderEntries(srcs[0], folders).value
               + (FolderEntries(srcs[1], folders).value + FolderEntries(srcs[2], folders).value))
  {
    var a, b, c := FolderEntries(srcs[0], folders).value, FolderEntries(srcs[1], folders).value,
                   FolderEntries(srcs[2], folders).value;
    var s1 := srcs[1..];
    var s2 := s1[1..];
    assert s1[0] == srcs[1] && s2[0] == srcs[2] && |s2[1..]| == 0;
    assert SourcesEntries(s2[1..], folders) == Ok([]);
    SourcesEntriesStep(s2, folders);
    assert c + [] == c;
    assert SourcesEntries(s2, folders) == Ok(c);
    SourcesEntriesStep(s1, folders);
    assert SourcesEntries(s1, folders) == Ok(b + c);
    SourcesEntriesStep(srcs, folders);
    assert SourcesEntries(srcs, folders) == Ok(a + (b + c));
  }

  /** One step of the walk over the sources. */
  lemma SourcesEntriesStep(srcs: seq<string>, folders: map<string, Folder>)
    requires |srcs| > 0 && FolderEntries(srcs[0], folders).Ok? && SourcesEntries(srcs[1..], folders).Ok?
    ensures SourcesEntries(srcs, folders)
         == Ok(FolderEntries(srcs[0], folders).value + SourcesEntries(srcs[1..], folders).value)
  {
  }
}

=== FILE: operations.dfy ===
/** Operation discovery and naming in the download script: `list_operations`,
    the base-URL rule of the main loop and the per-endpoint file name. */
module Operations {
  import opened JsonModel
  import opened Text
  import opened PyOps
  import opened Sanitize

  /** The method keys `list_operations` keeps, lower-cased. */
  const HttpVerbs: seq<string> := ["get", "post", "put", "patch", "delete"]

  /** One `(path, method, operationObject)` tuple. */
  datatype Operation = Operation(path: string, verb: string, op: Json)

  /** The operations of one path item, in key order. */
  function PathOps(path: string, methods: Fields): (r: seq<Operation>)
    ensures |r| <= |methods|
    ensures forall i :: 0 <= i < |r| ==> r[i].path == path && r[i].verb in HttpVerbs
  {
    if |methods| == 0 then []
    else
      var (m, op) := methods[0];
      var rest := PathOps(path, methods[1..]);
      if Lower(m) in HttpVerbs then [Operation(path, Lower(m), op)] + rest else rest
  }

  /** Each operation listed for a path item is one of its entries, the key
      lower-cased. */
  lemma {:induction false} PathOpsSound(path: string, methods: Fields, o: Operation)
    requires o in PathOps(path, methods)
    ensures exists j :: 0 <= j < |methods| && o == Operation(path, Lower(methods[j].0), methods[j].1)
    decreases |methods|
  {
    var (m, op) := methods[0];
    if Lower(m) in HttpVerbs && o == Operation(path, Lower(m), op) {
      assert o == Operation(path, Lower(methods[0].0), methods[0].1);
    } else {
      PathOpsSound(path, methods[1..], o);
      var j :| 0 <= j < |methods[1..]| && o == Operation(path, Lower(methods[1..][j].0), methods[1..][j].1);
      assert methods[1..][j] == methods[j + 1];
    }
  }

  /** Each entry whose key, lower-cased, is one of the five verbs is listed. */
  lemma {:induction false} PathOpsComplete(path: string, methods: Fields, j: nat)
    requires j < |methods| && Lower(methods[j].0) in HttpVerbs
    ensures Operation(path, Lower(methods[j].0), methods[j].1) in PathOps(path, methods)
    decreases j
  {
    if j > 0 {
      assert methods[1..][j - 1] == methods[j];
      PathOpsComplete(path, methods[1..], j - 1);
    }
  }

  /** Keeping entries is a filter: it distributes over concatenation, so the
      kept operations stay in their original order. */
  lemma {:induction false} PathOpsAppend(path: string, a: Fields, b: Fields)
    ensures PathOps(path, a + b) == PathOps(path, a) + PathOps(path, b)
    decreases |a|
  {
    if |a| > 0 {
      assert (a + b)[0] == a[0];
      assert (a + b)[1..] == a[1..] + b;
      PathOpsAppend(path, a[1..], b);
    } else {
      assert a + b == b;
    }
  }

  /** Lines 139-142 over the entries of `paths`. */
  function PathsOps(paths: Fields): (r: Result<seq<Operation>>)
  {
    if |paths| == 0 then Ok([])
    else
      var (path, methods) := paths[0];
      var ms :- Items(methods);
      var rest :- PathsOps(paths[1..]);
      Ok(PathOps(path, ms) + rest)
  }

  /** `.items()` raises on the first path item that is not a dict, and only
      then. */
  lemma {:induction false} PathsOpsRaises(paths: Fields)
    ensures PathsOps(paths).Raise? <==> exists i :: 0 <= i < |paths| && !paths[i].1.JObj?
    ensures PathsOps(paths).Raise? ==> PathsOps(paths) == Raise(AttributeError)
    decreases |paths|
  {
    if |paths| > 0 {
      PathsOpsRaises(paths[1..]);
      assert forall i :: 1 <= i < |paths| ==> paths[1..][i - 1] == paths[i];
      if exists i :: 1 <= i < |paths| && !paths[i].1.JObj? {
        var i :| 1 <= i < |paths| && !paths[i].1.JObj?;
        assert !paths[1..][i - 1].1.JObj?;
      }
    }
  }

  /** Every listed operation comes from a dict path item, under one of the
      five verbs. */
  lemma {:induction false} PathsOpsSound(paths: Fields, o: Operation)
    requires PathsOps(paths).Ok? && o in PathsOps(paths).value
    ensures o.verb in HttpVerbs
    ensures exists i :: 0 <= i < |paths| && paths[i].1.JObj? && o in PathOps(paths[i].0, paths[i].1.fields)
    decreases |paths|
  {
    var (path, methods) := paths[0];
    if o in PathOps(path, methods.fields) {
      assert paths[0].1.JObj? && o in PathOps(paths[0].0, paths[0].1.fields);
    } else {
      PathsOpsSound(paths[1..], o);
      var i :| 0 <= i < |paths[1..]| && paths[1..][i].1.JObj? && o in PathOps(paths[1..][i].0, paths[1..][i].1.fields);
      assert paths[1..][i] == paths[i + 1];
    }
  }

  /** `list_operations(swagger)`. */
  function ListOperations(swagger: Json): (r: Result<seq<Operation>>)
    ensures !swagger.JObj? ==> r == Raise(AttributeError)
    ensures swagger.JObj? && !HasKey(swagger.fields, "paths") ==> r == Ok([])
  {
    var paths :- Get(swagger, "paths", JObj([]));
    var entries :- Items(paths);
    PathsOps(entries)
  }

  /** One unfolding of `PathsOps` on a list whose head is a dict. */
  lemma PathsOpsCons(paths: Fields, rest: seq<Operation>)
    requires |paths| > 0 && paths[0].1.JObj? && PathsOps(paths[1..]) == Ok(rest)
    ensures PathsOps(paths) == Ok(PathOps(paths[0].0, paths[0].1.fields) + rest)
  {
  }

  lemma Assoc<T>(a: seq<T>, b: seq<T>, c: seq<T>)
    ensures a + (b + c) == (a + b) + c
  {
  }

  /** Path order comes first, method order within a path second. */
  lemma {:induction false} PathsOpsAppend(a: Fields, b: Fields)
    requires PathsOps(a).Ok? && PathsOps(b).Ok?
    ensures PathsOps(a + b) == Ok(PathsOps(a).value + PathsOps(b).value)
    decreases |a|
  {
    if |a| > 0 {
      var ab := a + b;
      assert ab[0] == a[0];
      assert ab[1..] == a[1..] + b;
      assert a[0].1.JObj?;
      var x, y := PathsOps(a[1..]).value, PathsOps(b).value;
      var ops := PathOps(a[0].0, a[0].1.fields);
      PathsOpsCons(a, x);
      PathsOpsAppend(a[1..], b);
      PathsOpsCons(ab, x + y);
      Assoc(ops, x, y);
    } else {
      assert PathsOps(a) == Ok([]);
      assert a + b == b;
      var y := PathsOps(b).value;
      var e: seq<Operation> := [];
      assert e + y == y;
    }
  }

  /** An entry of a dict path item is listed exactly when its key,
      lower-cased, is one of the five verbs. */
  lemma ListedIffVerb(paths: Fields, path: string, m: string, op: Json, methods: Fields)
    requires PathsOps(paths).Ok?
    requires (path, JObj(methods)) in paths && (m, op) in methods
    ensures Operation(path, Lower(m), op) in PathsOps(paths).value <==> Lower(m) in HttpVerbs
  {
    if Lower(m) in HttpVerbs {
      ListedWhenVerb(paths, path, m, op, methods);
    }
    if Operation(path, Lower(m), op) in PathsOps(paths).value {
      PathsOpsSound(paths, Operation(path, Lower(m), op));
    }
  }

  lemma {:induction false} ListedWhenVerb(paths: Fields, path: string, m: string, op: Json, methods: Fields)
    requires PathsOps(paths).Ok? && Lower(m) in HttpVerbs
    requires (path, JObj(methods)) in paths && (m, op) in methods
    ensures Operation(path, Lower(m), op) in PathsOps(paths).value
    decreases |paths|
  {
    var j :| 0 <= j < |methods| && methods[j] == (m, op);
    var rest := PathsOps(paths[1..]).value;
    PathsOpsCons(paths, rest);
    if paths[0] == (path, JObj(methods)) {
      PathOpsComplete(path, methods, j);
    } else {
      assert (path, JObj(methods)) in paths[1..] by {
        var i :| 0 <= i < |paths| && paths[i] == (path, JObj(methods));
        assert paths[1..][i - 1] == paths[i];
      }
      ListedWhenVerb(paths[1..], path, m, op, methods);
    }
  }

  /* ---------------------------------------------------------------------- */
  /* Base URL                                                               */
  /* ---------------------------------------------------------------------- */

  /** `/swagger.json` as the unescaped regex reads it: the `.` matches any
      character but a newline. */
  predicate SwaggerJsonLike(s: string) {
    |s| == 13 && s[..8] == "/swagger" && s[8] != '\n' && s[9..] == "json"
  }

  /** `re.sub(r'/swagger.json$', '', url)`. `$` matches at the very end or
      just before a final newline, so at most one match can be removed. */
  function StripSwaggerJson(url: string): (r: string)
    ensures |r| <= |url|
    ensures StartsWith(url, r) || (|r| > 0 && r[|r| - 1] == '\n')
  {
    var n := |url|;
    if n >= 13 && SwaggerJsonLike(url[n - 13..]) then url[..n - 13]
    else if n >= 14 && url[n - 1] == '\n' && SwaggerJsonLike(url[n - 14..n - 1]) then url[..n - 14] + "\n"
    else url
  }

  /** The document's own URL minus its trailing `/swagger.json`. */
  lemma StripSwaggerJsonSuffix(u: string, c: char)
    requires c != '\n'
    ensures StripSwaggerJson(u + "/swagger" + [c] + "json") == u
  {
    var url := u + "/swagger" + [c] + "json";
    assert url[|url| - 13..] == "/swagger" + [c] + "json";
    assert url[..|url| - 13] == u;
  }

  /** Before a final newline the suffix is removed too; the newline stays. */
  lemma StripSwaggerJsonBeforeNewline(u: string, c: char)
    requires c != '\n'
    ensures StripSwaggerJson(u + "/swagger" + [c] + "json\n") == u + "\n"
  {
    var url := u + "/swagger" + [c] + "json\n";
    var n := |url|;
    assert url[n - 1] == '\n';
    assert !SwaggerJsonLike(url[n - 13..]) by {
      assert url[n - 13..][12] == '\n';
    }
    assert url[n - 14..n - 1] == "/swagger" + [c] + "json";
    assert SwaggerJsonLike(url[n - 14..n - 1]);
    assert url[..n - 14] == u;
    assert StripSwaggerJson(url) == url[..n - 14] + "\n";
  }

  /** A URL that does not end that way is kept as it is. */
  lemma StripSwaggerJsonKeeps(url: string)
    requires !(|url| >= 13 && SwaggerJsonLike(url[|url| - 13..]))
    requires !(|url| >= 14 && url[|url| - 1] == '\n' && SwaggerJsonLike(url[|url| - 14..|url| - 1]))
    ensures StripSwaggerJson(url) == url
  {
  }

  /** Lines 261-273: `servers[0].url` when `servers` is a non-empty list,
      else `scheme://host+basePath` when `host` is truthy (scheme defaulting
      to `https`), else the document URL without `/swagger.json`. */
  function BaseUrl(swagger: Json, swaggerUrl: string): (r: Result<Json>)
    ensures !swagger.JObj? ==> r.Raise?
  {
    if !swagger.JObj? then
      match In("servers", swagger)
      case Raise(e) => Raise(e)
      case Ok(present) => Raise(if present then TypeError else AttributeError)
    else
      var fields := swagger.fields;
      var servers := GetOr(fields, "servers", JNull);
      if servers.JArr? && |servers.items| > 0 then Get(servers.items[0], "url", JStr(""))
      else
        var host := if Truthy(GetOr(fields, "host", JNull)) then GetOr(fields, "host", JNull) else JStr("");
        var basePath := if Truthy(GetOr(fields, "basePath", JNull)) then GetOr(fields, "basePath", JNull) else JStr("");
        var schemes := GetOr(fields, "schemes", JArr([]));
        var scheme :- if Truthy(schemes) then SubscriptFirst(schemes) else Ok(JStr("https"));
        if Truthy(host) then
          var s :- Str(scheme);
          var h :- Str(host);
          var b :- Str(basePath);
          Ok(JStr(s + "://" + h + b))
        else Ok(JStr(StripSwaggerJson(swaggerUrl)))
  }

  /** OpenAPI 3: the first server's `url` wins over everything else. */
  lemma BaseUrlServers(swagger: Json, swaggerUrl: string, servers: seq<Json>)
    requires swagger.JObj? && Lookup(swagger.fields, "servers") == Some(JArr(servers))
    requires |servers| > 0 && servers[0].JObj?
    ensures BaseUrl(swagger, swaggerUrl) == Ok(GetOr(servers[0].fields, "url", JStr("")))
  {
  }

  /** Swagger 2: `scheme://host basePath`, the scheme defaulting to `https`. */
  lemma BaseUrlHost(swagger: Json, swaggerUrl: string, host: string, basePath: string)
    requires swagger.JObj? && !HasKey(swagger.fields, "servers")
    requires Lookup(swagger.fields, "host") == Some(JStr(host)) && |host| > 0
    requires Lookup(swagger.fields, "basePath") == Some(JStr(basePath))
    requires !HasKey(swagger.fields, "schemes")
    ensures BaseUrl(swagger, swaggerUrl) == Ok(JStr("https://" + host + basePath))
  {
    assert "https" + "://" + host + basePath == "https://" + host + basePath;
    if basePath == "" {
      assert "https" + "://" + host + "" == "https://" + host + basePath;
    }
  }

  /** A declared scheme replaces the default. */
  lemma BaseUrlScheme(swagger: Json, swaggerUrl: string, host: string, scheme: string, schemes: seq<Json>)
    requires swagger.JObj? && !HasKey(swagger.fields, "servers")
    requires Lookup(swagger.fields, "host") == Some(JStr(host)) && |host| > 0
    requires !HasKey(swagger.fields, "basePath")
    requires Lookup(swagger.fields, "schemes") == Some(JArr(schemes)) && |schemes| > 0 && schemes[0] == JStr(scheme)
    ensures BaseUrl(swagger, swaggerUrl) == Ok(JStr(scheme + "://" + host))
  {
    assert scheme + "://" + host + "" == scheme + "://" + host;
  }

  /** Without servers or host, the base is the document URL without
      `/swagger.json`. */
  lemma BaseUrlFallback(swagger: Json, u: string)
    requires swagger.JObj? && !HasKey(swagger.fields, "servers") && !HasKey(swagger.fields, "host")
    requires !HasKey(swagger.fields, "schemes")
    ensures BaseUrl(swagger, u + "/swagger.json") == Ok(JStr(u))
  {
    StripSwaggerJsonSuffix(u, '.');
    assert u + "/swagger.json" == u + "/swagger" + ['.'] + "json";
  }

  /* ---------------------------------------------------------------------- */
  /* File names                                                             */
  /* ---------------------------------------------------------------------- */

  /** Line 300: `f"{method.upper()}_{sanitize_filename(path)}.json"`. */
  function OutputFileName(verb: string, path: string): (r: string)
    ensures EndsWith(r, ".json")
    ensures StartsWith(r, Upper(verb) + "_")
    ensures |r| == |verb| + 1 + |SanitizeFilename(path)| + 5
    ensures r[|verb| + 1..|r| - 5] == SanitizeFilename(path)
  {
    var r := Upper(verb) + "_" + SanitizeFilename(path) + ".json";
    assert r[|r| - 5..] == ".json";
    assert r[..|Upper(verb) + "_"|] == Upper(verb) + "_";
    assert r[|verb| + 1..|r| - 5] == SanitizeFilename(path);
    r
  }

  /** The five verbs are written in lower-case letters. */
  lemma VerbLetters(verb: string)
    requires verb in HttpVerbs
    ensures forall i :: 0 <= i < |verb| ==> 'a' <= verb[i] <= 'z'
  {
    assert verb == "get" || verb == "post" || verb == "put" || verb == "patch" || verb == "delete";
  }

  /** Upper-casing a lower-case word gives only allowed characters. */
  lemma UpperClean(word: string)
    requires forall i :: 0 <= i < |word| ==> 'a' <= word[i] <= 'z'
    ensures Clean(FileNameChars, Upper(word))
  {
    var u := Upper(word);
    forall i | 0 <= i < |u| ensures Allowed(FileNameChars, u[i]) {
      assert 'a' <= word[i] <= 'z';
    }
  }

  /** For a listed verb the file name uses only `[0-9A-Za-z._-]`. */
  lemma OutputFileNameClean(verb: string, path: string)
    requires verb in HttpVerbs
    ensures Clean(FileNameChars, OutputFileName(verb, path))
  {
    var u := Upper(verb);
    VerbLetters(verb);
    UpperClean(verb);
    var s := SanitizeFilename(path);
    assert Clean(FileNameChars, "_");
    assert Clean(FileNameChars, ".json") by {
      forall i | 0 <= i < 5 ensures Allowed(FileNameChars, ".json"[i]) {
      }
    }
    CleanConcat(FileNameChars, u, "_");
    CleanConcat(FileNameChars, u + "_", s);
    CleanConcat(FileNameChars, u + "_" + s, ".json");
    assert OutputFileName(verb, path) == u + "_" + s + ".json";
  }

}

=== FILE: pyops.dfy ===
/** Python's built-in operations on JSON values, with the exceptions they
    raise. The scripts apply `in`, `[...]`, `.get`, `.items()`, `for` and
    `str()` to values read from untrusted documents; each helper here says
    what Python does for every shape of value, so that the models built on
    them raise exactly where the scripts raise. */
module PyOps {
  import opened JsonModel
  import opened Text

  /** The exception classes the modelled code can raise. `Unmodelled` marks
      the two behaviours this model does not follow: `str()` of a list or
      dict, and a dict keyed by a hashable non-string value. */
  datatype PyError = TypeError | AttributeError | IndexError | KeyError | Unmodelled

  /** A Python evaluation: a value, or the exception it raised. */
  datatype Result<+T> = Ok(value: T) | Raise(error: PyError) {
    predicate IsFailure() {
      Raise?
    }

    function PropagateFailure<U>(): Result<U>
      requires Raise?
    {
      Raise(error)
    }

    function Extract(): T
      requires Ok?
    {
      value
    }
  }

  /** The exception raised by code that first tests `key in v` and then
      reads `v[key]` (when the test held) or calls `v.get(...)` (when it did
      not), on a truthy value `v` that is not a dict: `in` itself raises on
      numbers and booleans, a list or string cannot be indexed by a string,
      and only dicts have `get`. */
  function NonDictError(v: Json, key: string): (e: PyError)
    requires Truthy(v) && !v.JObj?
  {
    match In(key, v)
    case Raise(e) => e
    case Ok(present) => if present then TypeError else AttributeError
  }

  /** `key in container` for a string `key`. */
  function In(key: string, container: Json): (r: Result<bool>)
    ensures container.JObj? ==> r == Ok(HasKey(container.fields, key))
    ensures r.Raise? <==> !(container.JObj? || container.JArr? || container.JStr?)
  {
    match container
    case JObj(fields) => Ok(HasKey(fields, key))
    case JArr(items) => Ok(JStr(key) in items)
    case JStr(s) => Ok(HasSubstring(s, key))
    case _ => Raise(TypeError)
  }

  /** `container[key]` for a string `key`. */
  function Subscript(container: Json, key: string): (r: Result<Json>)
    ensures container.JObj? && HasKey(container.fields, key) ==> r.Ok?
    ensures r.Ok? ==> container.JObj? && Lookup(container.fields, key) == Some(r.value)
  {
    match container
    case JObj(fields) =>
      (match Lookup(fields, key)
       case Some(v) => Ok(v)
       case None => Raise(KeyError))
    case _ => Raise(TypeError)
  }

  /** `container[0]`. A dict's keys are strings, so the integer key 0 is
      never among them. */
  function SubscriptFirst(container: Json): (r: Result<Json>)
    ensures container.JArr? && |container.items| > 0 ==> r == Ok(container.items[0])
    ensures container.JArr? && |container.items| == 0 ==> r == Raise(IndexError)
  {
    match container
    case JArr(items) => if |items| == 0 then Raise(IndexError) else Ok(items[0])
    case JStr(s) => if |s| == 0 then Raise(IndexError) else Ok(JStr([s[0]]))
    case JObj(_) => Raise(KeyError)
    case _ => Raise(TypeError)
  }

  /** `container.get(key, default)`; only dicts have a `get` method. */
  function Get(container: Json, key: string, default: Json): (r: Result<Json>)
    ensures r.Ok? <==> container.JObj?
    ensures container.JObj? && !HasKey(container.fields, key) ==> r == Ok(default)
    ensures container.JObj? && HasKey(container.fields, key) ==>
              Some(r.value) == Lookup(container.fields, key)
  {
    match container
    case JObj(fields) =>
      (match Lookup(fields, key)
       case Some(v) => Ok(v)
       case None => Ok(default))
    case _ => Raise(AttributeError)
  }

  /** `container.items()`. */
  function Items(container: Json): (r: Result<Fields>)
    ensures r.Ok? <==> container.JObj?
    ensures r.Ok? ==> r.value == container.fields
  {
    match container
    case JObj(fields) => Ok(fields)
    case _ => Raise(AttributeError)
  }

  function KeyStrings(ks: seq<string>): (r: seq<Json>)
    ensures |r| == |ks|
    ensures forall i :: 0 <= i < |ks| ==> r[i] == JStr(ks[i])
  {
    if |ks| == 0 then [] else [JStr(ks[0])] + KeyStrings(ks[1..])
  }

  function CharStrings(s: string): (r: seq<Json>)
    ensures |r| == |s|
    ensures forall i :: 0 <= i < |s| ==> r[i] == JStr([s[i]])
  {
    if |s| == 0 then [] else [JStr([s[0]])] + CharStrings(s[1..])
  }

  /** The values `for x in container` visits: a list's elements, a dict's
      keys, a string's characters; other values are not iterable. */
  function Iterate(container: Json): (r: Result<seq<Json>>)
    ensures container.JArr? ==> r == Ok(container.items)
    ensures r.Raise? <==> !(container.JObj? || container.JArr? || container.JStr?)
  {
    match container
    case JArr(items) => Ok(items)
    case JObj(fields) => Ok(KeyStrings(Keys(fields)))
    case JStr(s) => Ok(CharStrings(s))
    case _ => Raise(TypeError)
  }

  /** `str(v)` (and an f-string field) for the scalar values. */
  function Str(v: Json): (r: Result<string>)
    ensures v.JStr? ==> r == Ok(v.s)
    ensures r.Raise? <==> v.JArr? || v.JObj?
  {
    match v
    case JNull => Ok("None")
    case JBool(b) => Ok(if b then "True" else "False")
    case JInt(i) => Ok(IntToString(i))
    case JStr(s) => Ok(s)
    case _ => Raise(Unmodelled)
  }

  /** A value used as a dict key in `d[key] = ...`: lists and dicts are
      unhashable; other non-string keys are outside this model. */
  function DictKey(key: Json): (r: Result<string>)
    ensures key.JStr? <==> r.Ok?
    ensures r.Ok? ==> r.value == key.s
  {
    match key
    case JStr(s) => Ok(s)
    case JArr(_) => Raise(TypeError)
    case JObj(_) => Raise(TypeError)
    case _ => Raise(Unmodelled)
  }

  /** The integer a list subscript uses: an int, or a bool as 0 or 1 (`bool`
      is a subclass of `int`). Any other index raises TypeError. */
  function ListIndex(index: Json): (r: Result<int>)
    ensures r.Raise? <==> !(index.JInt? || index.JBool?)
    ensures r.Raise? ==> r == Raise(TypeError)
    ensures index.JInt? ==> r == Ok(index.i)
    ensures index.JBool? ==> r == Ok(if index.b then 1 else 0)
  {
    match index
    case JInt(i) => Ok(i)
    case JBool(b) => Ok(if b then 1 else 0)
    case _ => Raise(TypeError)
  }

  /** `items[index] = v` on a list: a negative index counts from the end, and
      an index outside `-len(items)` .. `len(items) - 1` raises IndexError. */
  function ListSetItem(items: seq<Json>, index: Json, v: Json): (r: Result<seq<Json>>)
    ensures r.Ok? <==> ListIndex(index).Ok? && -|items| <= ListIndex(index).value < |items|
    ensures r.Raise? ==> r == Raise(if ListIndex(index).Ok? then IndexError else TypeError)
    ensures r.Ok? ==> |r.value| == |items|
    ensures r.Ok? ==> forall k :: 0 <= k < |items| ==>
              r.value[k] == if k == ListIndex(index).value || k == ListIndex(index).value + |items| then v else items[k]
  {
    var i :- ListIndex(index);
    if -|items| <= i < |items| then Ok(items[if i < 0 then i + |items| else i := v])
    else Raise(IndexError)
  }
}

=== FILE: request.dfy ===
/** The request builder (`build_request_for_operation`): the URL, method,
    headers, query parameters and JSON body a sample call of one operation
    would carry. */
module RequestBuilder {
  import opened JsonModel
  import opened Text
  import opened PyOps
  import opened Sampler
  import opened Schema

  /** `GLOBAL_HEADERS`, copied into every request. */
  const GlobalHeaders: Fields := [("Accept", JStr("application/json"))]

  /** The dict the builder returns. */
  datatype HttpRequest = HttpRequest(url: string, verb: string, headers: Fields, params: Fields, json: Json)

  /** The builder's local state while it folds over the parameters. */
  datatype Draft = Draft(url: string, params: Fields, headers: Fields, body: Json)

  /** `urljoin(base_url + '/', path.lstrip('/'))`, for a base URL that ends
      in a path segment and a path without scheme, query or dot segments. */
  function JoinUrl(base: string, path: string): (r: string)
    ensures StartsWith(r, base + "/")
    ensures EndsWith(r, LStrip(path, '/'))
    ensures |r| == |base| + 1 + |LStrip(path, '/')|
  {
    var r := base + "/" + LStrip(path, '/');
    assert r[..|base + "/"|] == base + "/";
    assert r[|r| - |LStrip(path, '/')|..] == LStrip(path, '/');
    r
  }

  /** Lines 166-172: the definitions table. The document is a dict: the
      caller has already read it with `.get`. */
  function Definitions(swagger: Fields): (r: Result<Json>)
    ensures !HasKey(swagger, "components") ==> r == Ok(GetOr(swagger, "definitions", JObj([])))
  {
    var d := GetOr(swagger, "definitions", JObj([]));
    match Lookup(swagger, "components")
    case None => Ok(d)
    case Some(c) =>
      match In("schemas", c)
      case Raise(e) => Raise(e)
      case Ok(has) => if has then Subscript(c, "schemas") else Ok(d)
  }

  /** OpenAPI 3 `components.schemas` wins over Swagger 2 `definitions`. */
  lemma DefinitionsPreferComponents(swagger: Fields, c: Json)
    requires Lookup(swagger, "components") == Some(c) && c.JObj? && HasKey(c.fields, "schemas")
    ensures Definitions(swagger) == Ok(GetOr(c.fields, "schemas", JNull))
  {
  }

  /** A `components` dict without `schemas` leaves `definitions` (or `{}`). */
  lemma DefinitionsFallBack(swagger: Fields, c: Json)
    requires Lookup(swagger, "components") == Some(c) && c.JObj? && !HasKey(c.fields, "schemas")
    ensures Definitions(swagger) == Ok(GetOr(swagger, "definitions", JObj([])))
  {
  }

  /** Lines 180-183: a parameter with a `schema` is sampled by the schema
      synthesizer, any other by `sample_for_type`. */
  function ParamSample(p: Json, defs: Json, clock: Clock, fuel: nat): (r: Result<Json>)
    requires p.JObj?
    ensures HasKey(p.fields, "schema") ==> r == Synth(GetOr(p.fields, "schema", JNull), defs, clock, fuel)
    ensures !HasKey(p.fields, "schema") ==> r == SampleForType(p, clock)
    ensures !HasKey(p.fields, "schema") && r.Raise? ==> r == Raise(TypeError) && BadPattern(p)
    ensures !HasKey(p.fields, "schema") && r.Ok? ==> IsFixedSample(r.value, clock) || IsEnumHead(p, r.value)
  {
    match Lookup(p.fields, "schema")
    case Some(s) => Synth(s, defs, clock, fuel)
    case None => SampleForType(p, clock)
  }

  /** Lines 184-197: place one sample according to the parameter's `in`. */
  function ApplyParam(d: Draft, loc: Json, name: Json, sample: Json): (r: Result<Draft>)
    ensures loc == JStr("query") && name.JStr? ==>
              && r.Ok? && r.value == d.(params := r.value.params)
              && Lookup(r.value.params, name.s) == Some(sample)
              && forall k :: k != name.s ==> Lookup(r.value.params, k) == Lookup(d.params, k)
    ensures loc == JStr("header") && name.JStr? ==>
              && r.Ok? && r.value == d.(headers := r.value.headers)
              && Lookup(r.value.headers, name.s) == Some(sample)
              && forall k :: k != name.s ==> Lookup(r.value.headers, k) == Lookup(d.headers, k)
    ensures loc == JStr("body") ==> r == Ok(d.(body := sample))
    ensures loc == JStr("formData") && name.JStr? && (d.body.JNull? || d.body.JObj?) ==>
              && r.Ok? && r.value == d.(body := r.value.body)
              && r.value.body.JObj?
              && Lookup(r.value.body.fields, name.s) == Some(sample)
              && forall k :: k != name.s ==>
                   Lookup(r.value.body.fields, k) == if d.body.JObj? then Lookup(d.body.fields, k) else None
    ensures loc == JStr("formData") && !(d.body.JNull? || d.body.JObj? || d.body.JArr?) ==> r == Raise(TypeError)
    ensures loc == JStr("path") && !name.JStr? ==> r == Raise(TypeError)
    ensures loc == JStr("path") && name.JStr? && !(sample.JArr? || sample.JObj?) ==>
              r.Ok? && r.value == d.(url := r.value.url)
    ensures loc !in {JStr("path"), JStr("query"), JStr("header"), JStr("body"), JStr("formData")} ==> r == Ok(d)
  {
    if loc == JStr("path") then
      if !name.JStr? then Raise(TypeError)
      else
        var rep :- Str(sample);
        Ok(d.(url := Replace(d.url, "{" + name.s + "}", rep)))
    else if loc == JStr("query") then
      var k :- DictKey(name);
      Ok(d.(params := Set(d.params, k, sample)))
    else if loc == JStr("header") then
      var k :- DictKey(name);
      Ok(d.(headers := Set(d.headers, k, sample)))
    else if loc == JStr("body") then Ok(d.(body := sample))
    else if loc == JStr("formData") then
      var body := if d.body.JNull? then JObj([]) else d.body;
      match body
      case JObj(fields) =>
        var k :- DictKey(name);
        Ok(d.(body := JObj(Set(fields, k, sample))))
      case JArr(items) =>
        var items' :- ListSetItem(items, name, sample);
        Ok(d.(body := JArr(items')))
      case _ => Raise(TypeError)
    else Ok(d)
  }

  /** A form parameter on top of a list body (one a `body` parameter set)
      assigns a list element: `body[name] = sample` with an int or bool
      `name`. */
  lemma FormDataListBody(d: Draft, name: Json, sample: Json)
    requires d.body.JArr?
    ensures ApplyParam(d, JStr("formData"), name, sample)
         == match ListSetItem(d.body.items, name, sample)
            case Ok(items) => Ok(d.(body := JArr(items)))
            case Raise(e) => Raise(e)
  {
  }

  /** For instance, index 0 of `[5]` becomes the sample, and index 1 is out
      of range. */
  lemma FormDataListExample()
    ensures ApplyParam(Draft("", [], [], JArr([JInt(5)])), JStr("formData"), JInt(0), JStr("x"))
         == Ok(Draft("", [], [], JArr([JStr("x")])))
    ensures ApplyParam(Draft("", [], [], JArr([JInt(5)])), JStr("formData"), JInt(1), JStr("x"))
         == Raise(IndexError)
  {
    var r := ListSetItem([JInt(5)], JInt(0), JStr("x"));
    assert r.Ok? && |r.value| == 1 && r.value[0] == JStr("x");
    assert r.value == [JStr("x")];
  }

  /** A path parameter replaces its `{name}` placeholder by `str(sample)`:
      the first occurrence in place, and the rest of the URL likewise.
      Other placeholders, before or after it, are left alone. */
  lemma PathParamSubstitutes(d: Draft, name: string, sample: Json, x: string, y: string)
    requires !(sample.JArr? || sample.JObj?)
    requires d.url == x + "{" + name + "}" + y
    requires forall i :: 0 <= i < |x| ==> !StartsWith(d.url[i..], "{" + name + "}")
    ensures ApplyParam(d, JStr("path"), JStr(name), sample)
         == Ok(d.(url := x + Str(sample).value + Replace(y, "{" + name + "}", Str(sample).value)))
  {
    var pat := "{" + name + "}";
    assert d.url == x + pat + y;
    ReplaceFirst(x, pat, y, Str(sample).value);
  }

  /** A URL without the placeholder is left as it was. */
  lemma PathParamAbsent(d: Draft, name: string, sample: Json)
    requires !(sample.JArr? || sample.JObj?)
    requires !HasSubstring(d.url, "{" + name + "}")
    ensures ApplyParam(d, JStr("path"), JStr(name), sample) == Ok(d)
  {
    ReplaceAbsent(d.url, "{" + name + "}", Str(sample).value);
  }

  /** Lines 176-197 for one entry of `parameters`. */
  function ApplyParameter(d: Draft, p: Json, defs: Json, clock: Clock, fuel: nat): (r: Result<Draft>)
    ensures !p.JObj? ==> r == Raise(AttributeError)
  {
    if !p.JObj? then Raise(AttributeError)
    else
      var sample :- ParamSample(p, defs, clock, fuel);
      ApplyParam(d, GetOr(p.fields, "in", JNull), GetOr(p.fields, "name", JNull), sample)
  }

  /** Lines 176-197: the parameters in order; the first exception ends the
      fold. */
  function ApplyParams(d: Draft, ps: seq<Json>, defs: Json, clock: Clock, fuel: nat): (r: Result<Draft>)
    ensures |ps| == 0 ==> r == Ok(d)
    decreases |ps|
  {
    if |ps| == 0 then Ok(d)
    else
      var d' :- ApplyParameter(d, ps[0], defs, clock, fuel);
      ApplyParams(d', ps[1..], defs, clock, fuel)
  }

  /** Folding over `ps + qs` is folding over `ps`, then over `qs`. */
  lemma {:induction false} ApplyParamsAppend(d: Draft, ps: seq<Json>, qs: seq<Json>, defs: Json, clock: Clock, fuel: nat)
    ensures ApplyParams(d, ps + qs, defs, clock, fuel)
         == match ApplyParams(d, ps, defs, clock, fuel)
            case Ok(d') => ApplyParams(d', qs, defs, clock, fuel)
            case Raise(e) => Raise(e)
    decreases |ps|
  {
    if |ps| > 0 {
      assert (ps + qs)[0] == ps[0];
      assert (ps + qs)[1..] == ps[1..] + qs;
      match ApplyParameter(d, ps[0], defs, clock, fuel)
      case Ok(d') => ApplyParamsAppend(d', ps[1..], qs, defs, clock, fuel);
      case Raise(_) =>
    } else {
      assert ps + qs == qs;
    }
  }

  /** The declaration's location and name. */
  predicate Declares(p: Json, loc: string, name: string) {
    && p.JObj?
    && GetOr(p.fields, "in", JNull) == JStr(loc)
    && GetOr(p.fields, "name", JNull) == JStr(name)
  }

  /** A query (or header) parameter sends its sample under its name. */
  lemma ParameterPlaced(d: Draft, p: Json, loc: string, name: string, defs: Json, clock: Clock, fuel: nat)
    requires loc == "query" || loc == "header"
    requires Declares(p, loc, name)
    requires ApplyParameter(d, p, defs, clock, fuel).Ok?
    ensures var r := ApplyParameter(d, p, defs, clock, fuel).value;
            Lookup(if loc == "query" then r.params else r.headers, name)
            == Some(ParamSample(p, defs, clock, fuel).value)
  {
    var sample := ParamSample(p, defs, clock, fuel).value;
    assert ApplyParameter(d, p, defs, clock, fuel) == ApplyParam(d, JStr(loc), JStr(name), sample);
  }

  /** Where a query (or header) parameter's value comes from: its `schema`
      when it declares one, its own `type` otherwise. A sampler that raises
      makes the parameter raise the same exception. */
  lemma ParameterSampleSource(d: Draft, p: Json, loc: string, name: string, defs: Json, clock: Clock, fuel: nat)
    requires loc == "query" || loc == "header"
    requires Declares(p, loc, name)
    ensures var s := if HasKey(p.fields, "schema") then Synth(GetOr(p.fields, "schema", JNull), defs, clock, fuel)
                     else SampleForType(p, clock);
            var r := ApplyParameter(d, p, defs, clock, fuel);
            && (s.Raise? ==> r == Raise(s.error))
            && (s.Ok? ==> r.Ok? && Lookup(if loc == "query" then r.value.params else r.value.headers, name) == Some(s.value))
  {
    if ParamSample(p, defs, clock, fuel).Ok? {
      ParameterPlaced(d, p, loc, name, defs, clock, fuel);
    }
  }

  lemma ApplyParamsPair(d: Draft, p1: Json, p2: Json, defs: Json, clock: Clock, fuel: nat)
    ensures ApplyParams(d, [p1, p2], defs, clock, fuel)
         == match ApplyParameter(d, p1, defs, clock, fuel)
            case Ok(d1) => ApplyParameter(d1, p2, defs, clock, fuel)
            case Raise(e) => Raise(e)
  {
    assert [p1, p2][1..] == [p2];
    assert [p2][1..] == [];
  }

  /** Of two query (or header) parameters with the same name, the later
      one's sample is the one sent. */
  lemma LaterParamWins(d: Draft, p1: Json, p2: Json, loc: string, name: string, sample: Json,
                       defs: Json, clock: Clock, fuel: nat)
    requires loc == "query" || loc == "header"
    requires Declares(p1, loc, name) && Declares(p2, loc, name)
    requires ParamSample(p2, defs, clock, fuel) == Ok(sample)
    requires ApplyParams(d, [p1, p2], defs, clock, fuel).Ok?
    ensures var r := ApplyParams(d, [p1, p2], defs, clock, fuel).value;
            Lookup(if loc == "query" then r.params else r.headers, name) == Some(sample)
  {
    ApplyParamsPair(d, p1, p2, defs, clock, fuel);
    var d1 := ApplyParameter(d, p1, defs, clock, fuel).value;
    ParameterPlaced(d1, p2, loc, name, defs, clock, fuel);
  }

  /** A parameter that is not a header named `Accept` leaves the `Accept`
      header alone. */
  lemma {:induction false} ApplyParamsKeepAccept(d: Draft, ps: seq<Json>, defs: Json, clock: Clock, fuel: nat)
    requires forall i :: 0 <= i < |ps| ==> !Declares(ps[i], "header", "Accept")
    requires ApplyParams(d, ps, defs, clock, fuel).Ok?
    ensures Lookup(ApplyParams(d, ps, defs, clock, fuel).value.headers, "Accept") == Lookup(d.headers, "Accept")
    decreases |ps|
  {
    if |ps| > 0 {
      var p := ps[0];
      var d' := ApplyParameter(d, p, defs, clock, fuel).value;
      var loc := GetOr(p.fields, "in", JNull);
      var name := GetOr(p.fields, "name", JNull);
      var sample := ParamSample(p, defs, clock, fuel).value;
      assert ApplyParameter(d, p, defs, clock, fuel) == ApplyParam(d, loc, name, sample);
      assert Lookup(d'.headers, "Accept") == Lookup(d.headers, "Accept") by {
        if loc == JStr("header") {
          assert name != JStr("Accept");
          if name.JStr? {
            assert name.s != "Accept";
          }
        } else {
          ApplyParamHeaders(d, loc, name, sample);
        }
      }
      assert forall i :: 0 <= i < |ps[1..]| ==> ps[1..][i] == ps[i + 1];
      ApplyParamsKeepAccept(d', ps[1..], defs, clock, fuel);
    }
  }

  /** Only a header parameter touches the headers. */
  lemma ApplyParamHeaders(d: Draft, loc: Json, name: Json, sample: Json)
    requires ApplyParam(d, loc, name, sample).Ok? && loc != JStr("header")
    ensures ApplyParam(d, loc, name, sample).value.headers == d.headers
  {
  }

  /** Lines 199-211: the OpenAPI 3 `requestBody` override of the body the
      parameters built. */
  function RequestBody(body: Json, op: Fields, defs: Json, clock: Clock, fuel: nat): (r: Result<Json>)
    ensures !HasKey(op, "requestBody") ==> r == Ok(body)
  {
    match Lookup(op, "requestBody")
    case None => Ok(body)
    case Some(rb) =>
      var content :- Get(rb, "content", JObj([]));
      var hasJson :- In("application/json", content);
      if hasJson then
        var media :- Subscript(content, "application/json");
        var schema :- Get(media, "schema", JNull);
        Synth(schema, defs, clock, fuel)
      else
        var entries :- Items(content);
        if |entries| == 0 then Ok(body)
        else
          var schema :- Get(entries[0].1, "schema", JNull);
          Synth(schema, defs, clock, fuel)
  }

  /** `rb.get('content', {})` on a dict `requestBody`. */
  lemma RequestBodyContent(rb: Json)
    requires rb.JObj?
    ensures Get(rb, "content", JObj([])) == Ok(GetOr(rb.fields, "content", JObj([])))
  {
  }

  /** With a dict `content` holding an `application/json` entry, that entry's
      schema decides the body. */
  lemma RequestBodyJson(body: Json, op: Fields, rb: Json, media: Json, defs: Json, clock: Clock, fuel: nat)
    requires Lookup(op, "requestBody") == Some(rb) && rb.JObj?
    requires GetOr(rb.fields, "content", JObj([])).JObj?
    requires Lookup(GetOr(rb.fields, "content", JObj([])).fields, "application/json") == Some(media) && media.JObj?
    ensures RequestBody(body, op, defs, clock, fuel) == Synth(GetOr(media.fields, "schema", JNull), defs, clock, fuel)
  {
    var content := GetOr(rb.fields, "content", JObj([]));
    RequestBodyContent(rb);
    assert In("application/json", content) == Ok(true);
    assert Subscript(content, "application/json") == Ok(media);
    assert Get(media, "schema", JNull) == Ok(GetOr(media.fields, "schema", JNull));
  }

  /** Without an `application/json` entry, the first entry's schema decides
      the body; an empty `content` keeps the body the parameters built. */
  lemma RequestBodyOther(body: Json, op: Fields, rb: Json, defs: Json, clock: Clock, fuel: nat)
    requires Lookup(op, "requestBody") == Some(rb) && rb.JObj?
    requires GetOr(rb.fields, "content", JObj([])).JObj?
    requires !HasKey(GetOr(rb.fields, "content", JObj([])).fields, "application/json")
    ensures var content := GetOr(rb.fields, "content", JObj([])).fields;
            && (|content| > 0 && content[0].1.JObj? ==>
                  RequestBody(body, op, defs, clock, fuel) == Synth(GetOr(content[0].1.fields, "schema", JNull), defs, clock, fuel))
            && (|content| == 0 ==> RequestBody(body, op, defs, clock, fuel) == Ok(body))
  {
    var content := GetOr(rb.fields, "content", JObj([]));
    RequestBodyContent(rb);
    assert In("application/json", content) == Ok(false);
    assert Items(content) == Ok(content.fields);
    if |content.fields| > 0 && content.fields[0].1.JObj? {
      var first := content.fields[0].1;
      assert Get(first, "schema", JNull) == Ok(GetOr(first.fields, "schema", JNull));
    }
  }

  /** `build_request_for_operation(base_url, path, verb, operation, swagger)`
      for a dict document. */
  function BuildRequest(base: Json, path: string, verb: string, op: Json, swagger: Fields,
                        clock: Clock, fuel: nat): (r: Result<HttpRequest>)
    ensures !base.JStr? ==> r == Raise(TypeError)
    ensures !op.JObj? && base.JStr? && Definitions(swagger).Ok? ==> r == Raise(AttributeError)
    ensures r.Ok? ==> r.value.verb == Upper(verb)
  {
    if !base.JStr? then Raise(TypeError)
    else
      var url := JoinUrl(base.s, path);
      var defs :- Definitions(swagger);
      var declared :- Get(op, "parameters", JArr([]));
      var ps :- Iterate(declared);
      var d :- ApplyParams(Draft(url, [], GlobalHeaders, JNull), ps, defs, clock, fuel);
      var body :- RequestBody(d.body, op.fields, defs, clock, fuel);
      Ok(HttpRequest(d.url, Upper(verb), d.headers, d.params, body))
  }

  /** An operation without parameters or `requestBody` gets the joined URL,
      the global headers, no query parameters and no body. */
  lemma BuildRequestPlain(base: string, path: string, verb: string, op: Json, swagger: Fields, clock: Clock, fuel: nat)
    requires op.JObj? && !HasKey(op.fields, "parameters") && !HasKey(op.fields, "requestBody")
    requires Definitions(swagger).Ok?
    ensures BuildRequest(JStr(base), path, verb, op, swagger, clock, fuel)
         == Ok(HttpRequest(JoinUrl(base, path), Upper(verb), GlobalHeaders, [], JNull))
  {
  }

  /** The `Accept: application/json` header survives unless a header
      parameter named `Accept` overwrites it. */
  lemma BuildRequestKeepsAccept(base: Json, path: string, verb: string, op: Json, ps: seq<Json>,
                                swagger: Fields, clock: Clock, fuel: nat)
    requires op.JObj? && GetOr(op.fields, "parameters", JArr([])) == JArr(ps)
    requires forall i :: 0 <= i < |ps| ==> !Declares(ps[i], "header", "Accept")
    ensures BuildRequest(base, path, verb, op, swagger, clock, fuel).Ok? ==>
              Lookup(BuildRequest(base, path, verb, op, swagger, clock, fuel).value.headers, "Accept")
              == Some(JStr("application/json"))
  {
    if BuildRequest(base, path, verb, op, swagger, clock, fuel).Ok? {
      var defs := Definitions(swagger).value;
      var d0 := Draft(JoinUrl(base.s, path), [], GlobalHeaders, JNull);
      BuildRequestHeaders(base, path, verb, op, ps, swagger, clock, fuel);
      ApplyParamsKeepAccept(d0, ps, defs, clock, fuel);
      LookupAt(GlobalHeaders, 0, "Accept");
    }
  }

  /** Lines 162-219 as a whole: a built request carries the URL, headers and
      query parameters the parameter loop left in the draft, and a body that
      the `requestBody` rule derives from the draft's body. */
  lemma BuildRequestParts(base: Json, path: string, verb: string, op: Json, swagger: Fields,
                          clock: Clock, fuel: nat)
    requires BuildRequest(base, path, verb, op, swagger, clock, fuel).Ok?
    ensures base.JStr? && op.JObj? && Definitions(swagger).Ok?
    ensures Iterate(GetOr(op.fields, "parameters", JArr([]))).Ok?
    ensures var r := BuildRequest(base, path, verb, op, swagger, clock, fuel).value;
            var defs := Definitions(swagger).value;
            var ps := Iterate(GetOr(op.fields, "parameters", JArr([]))).value;
            var d := ApplyParams(Draft(JoinUrl(base.s, path), [], GlobalHeaders, JNull), ps, defs, clock, fuel);
            d.Ok? && r.url == d.value.url && r.headers == d.value.headers && r.params == d.value.params
            && RequestBody(d.value.body, op.fields, defs, clock, fuel) == Ok(r.json)
  {
    assert op.JObj?;
    assert Get(op, "parameters", JArr([])) == Ok(GetOr(op.fields, "parameters", JArr([])));
  }

  /** Lines 201-205: an operation whose `requestBody.content` has an
      `application/json` entry sends the synthesis of that entry's schema,
      whatever its parameters did to the body. */
  lemma BuildRequestJsonBody(base: Json, path: string, verb: string, op: Json, swagger: Fields,
                             rb: Json, media: Json, clock: Clock, fuel: nat)
    requires op.JObj? && Lookup(op.fields, "requestBody") == Some(rb) && rb.JObj?
    requires GetOr(rb.fields, "content", JObj([])).JObj?
    requires Lookup(GetOr(rb.fields, "content", JObj([])).fields, "application/json") == Some(media) && media.JObj?
    ensures BuildRequest(base, path, verb, op, swagger, clock, fuel).Ok? ==>
              Synth(GetOr(media.fields, "schema", JNull), Definitions(swagger).value, clock, fuel)
              == Ok(BuildRequest(base, path, verb, op, swagger, clock, fuel).value.json)
  {
    if BuildRequest(base, path, verb, op, swagger, clock, fuel).Ok? {
      BuildRequestParts(base, path, verb, op, swagger, clock, fuel);
      var defs := Definitions(swagger).value;
      var ps := Iterate(GetOr(op.fields, "parameters", JArr([]))).value;
      var d := ApplyParams(Draft(JoinUrl(base.s, path), [], GlobalHeaders, JNull), ps, defs, clock, fuel).value;
      RequestBodyJson(d.body, op.fields, rb, media, defs, clock, fuel);
    }
  }

  /** The request's headers are the ones the parameters left in the draft. */
  lemma BuildRequestHeaders(base: Json, path: string, verb: string, op: Json, ps: seq<Json>,
                            swagger: Fields, clock: Clock, fuel: nat)
    requires op.JObj? && GetOr(op.fields, "parameters", JArr([])) == JArr(ps)
    requires BuildRequest(base, path, verb, op, swagger, clock, fuel).Ok?
    ensures base.JStr? && Definitions(swagger).Ok?
    ensures var d0 := Draft(JoinUrl(base.s, path), [], GlobalHeaders, JNull);
            var d := ApplyParams(d0, ps, Definitions(swagger).value, clock, fuel);
            d.Ok? && BuildRequest(base, path, verb, op, swagger, clock, fuel).value.headers == d.value.headers
  {
    assert Get(op, "parameters", JArr([])) == Ok(JArr(ps));
  }
}

=== FILE: sampler.dfy ===
/** The parameter sampler (`sample_for_type`): one representative scalar for
    a parameter declaration that carries its type inline. */
module Sampler {
  import opened JsonModel
  import opened Text
  import opened PyOps

  /** The two renderings of `datetime.utcnow()` the samplers use:
      `strftime('%Y%m%d')` and `isoformat() + 'Z'`. The clock is an input. */
  datatype Clock = Clock(date: string, dateTime: string)

  /** `re.search(r"\\d", pattern)`: the raw regex matches a backslash
      followed by `d`, so this asks whether the pattern mentions `\d`. */
  predicate AsksForDigits(pattern: string) {
    HasSubstring(pattern, "\\d")
  }

  /** The first element of a dict's `enum` entry when that entry is a
      non-empty list (`'enum' in d and isinstance(d['enum'], list) and
      d['enum']`). */
  function EnumHead(fields: Fields): Option<Json> {
    match Lookup(fields, "enum")
    case Some(JArr(items)) => if |items| > 0 then Some(items[0]) else None
    case _ => None
  }

  /** The value a dict parameter's non-empty `enum` list offers first. */
  predicate IsEnumHead(param: Json, v: Json) {
    && param.JObj?
    && match Lookup(param.fields, "enum")
       case Some(JArr(items)) => |items| > 0 && items[0] == v
       case _ => false
  }

  /** The fixed samples, one per rule of the sampler's priority list. */
  predicate IsFixedSample(v: Json, clock: Clock) {
    v in {JInt(1), JBool(true), JStr(clock.date), JStr(clock.dateTime), JStr("123"), JStr("sample")}
  }

  /** A dict parameter whose `pattern` entry is not a string: `re.search`
      raises on it once the sampler reaches the pattern rule. */
  predicate BadPattern(param: Json) {
    && param.JObj?
    && match Lookup(param.fields, "pattern")
       case Some(p) => !p.JStr?
       case None => false
  }

  /** `sample_for_type(param)`. */
  function SampleForType(param: Json, clock: Clock): (r: Result<Json>)
    ensures !Truthy(param) ==> r == Ok(JStr("sample"))
    ensures Truthy(param) && !param.JObj? ==> r.Raise?
    ensures param.JObj? && r.Raise? ==> r == Raise(TypeError) && BadPattern(param)
    ensures r.Ok? ==> IsFixedSample(r.value, clock) || IsEnumHead(param, r.value)
  {
    if !Truthy(param) then Ok(JStr("sample"))
    else if !param.JObj? then Raise(NonDictError(param, "enum"))
    else SampleFields(param.fields, clock)
  }

  /** The rules of `sample_for_type` for a non-empty dict, in priority order. */
  function SampleFields(fields: Fields, clock: Clock): (r: Result<Json>)
    ensures r.Raise? ==> r == Raise(TypeError) && BadPattern(JObj(fields))
    ensures r.Ok? ==> IsFixedSample(r.value, clock) || EnumHead(fields) == Some(r.value)
  {
    match EnumHead(fields)
    case Some(v) => Ok(v)
    case None =>
      var t := GetOr(fields, "type", JStr("string"));
      var fmt := GetOr(fields, "format", JStr(""));
      if t == JStr("integer") || t == JStr("number") then Ok(JInt(1))
      else if t == JStr("boolean") then Ok(JBool(true))
      else if fmt == JStr("date") then Ok(JStr(clock.date))
      else if fmt == JStr("date-time") then Ok(JStr(clock.dateTime))
      else
        match Lookup(fields, "pattern")
        case None => Ok(JStr("sample"))
        case Some(JStr(p)) => Ok(JStr(if AsksForDigits(p) then "123" else "sample"))
        case Some(_) => Raise(TypeError)
  }

  /** A non-empty `enum` list decides the sample, whatever the type says. */
  lemma SampleEnumFirst(param: Json, items: seq<Json>, clock: Clock)
    requires param.JObj? && Lookup(param.fields, "enum") == Some(JArr(items)) && |items| > 0
    ensures SampleForType(param, clock) == Ok(items[0])
  {
  }

  /** Without a usable `enum`, a numeric type gives 1 and a boolean type
      gives true. */
  lemma SampleByType(param: Json, clock: Clock)
    requires param.JObj? && EnumHead(param.fields) == None
    ensures Lookup(param.fields, "type") in {Some(JStr("integer")), Some(JStr("number"))} ==>
              SampleForType(param, clock) == Ok(JInt(1))
    ensures Lookup(param.fields, "type") == Some(JStr("boolean")) ==>
              SampleForType(param, clock) == Ok(JBool(true))
  {
  }

  /** For any other type (a missing one included), the format decides, then
      the pattern: `\d` in it gives "123", anything else "sample". */
  lemma SampleByFormatAndPattern(param: Json, clock: Clock)
    requires param.JObj? && |param.fields| > 0 && EnumHead(param.fields) == None
    requires Lookup(param.fields, "type") !in {Some(JStr("integer")), Some(JStr("number")), Some(JStr("boolean"))}
    ensures Lookup(param.fields, "format") == Some(JStr("date")) ==>
              SampleForType(param, clock) == Ok(JStr(clock.date))
    ensures Lookup(param.fields, "format") == Some(JStr("date-time")) ==>
              SampleForType(param, clock) == Ok(JStr(clock.dateTime))
    ensures Lookup(param.fields, "format") !in {Some(JStr("date")), Some(JStr("date-time"))} ==>
              SampleForType(param, clock)
              == match Lookup(param.fields, "pattern")
                 case None => Ok(JStr("sample"))
                 case Some(JStr(p)) => Ok(JStr(if AsksForDigits(p) then "123" else "sample"))
                 case Some(_) => Raise(TypeError)
  {
    var t := GetOr(param.fields, "type", JStr("string"));
    assert t !in {JStr("integer"), JStr("number"), JStr("boolean")};
  }

  /** The sampler reads a dict through four lookups only. */
  lemma SampleFieldsAgree(f: Fields, g: Fields, clock: Clock)
    requires EnumHead(f) == EnumHead(g)
    requires GetOr(f, "type", JStr("string")) == GetOr(g, "type", JStr("string"))
    requires GetOr(f, "format", JStr("")) == GetOr(g, "format", JStr(""))
    requires Lookup(f, "pattern") == Lookup(g, "pattern")
    ensures SampleFields(f, clock) == SampleFields(g, clock)
  {
  }

  /** An empty dict reaches the fallback, so every dict is sampled by the
      rules alone. */
  lemma SampleDict(param: Json, clock: Clock)
    requires param.JObj?
    ensures SampleForType(param, clock) == SampleFields(param.fields, clock)
  {
    if |param.fields| == 0 {
      assert SampleFields([], clock) == Ok(JStr("sample"));
    }
  }

  /** The four lookups do not see an appended `type` entry, except `type`. */
  lemma TypedLookups(f: Fields, g: Fields)
    requires !HasKey(f, "type") && g == f + [("type", JStr("string"))]
    ensures EnumHead(g) == EnumHead(f)
    ensures GetOr(g, "type", JStr("string")) == GetOr(f, "type", JStr("string"))
    ensures GetOr(g, "format", JStr("")) == GetOr(f, "format", JStr(""))
    ensures Lookup(g, "pattern") == Lookup(f, "pattern")
  {
    LookupAppend(f, "type", JStr("string"), "enum");
    LookupAppend(f, "type", JStr("string"), "type");
    LookupAppend(f, "type", JStr("string"), "format");
    LookupAppend(f, "type", JStr("string"), "pattern");
  }

  /** A declaration without `type` is sampled as one declaring `"string"`. */
  lemma SampleMissingTypeIsString(param: Json, typed: Json, clock: Clock)
    requires param.JObj? && !HasKey(param.fields, "type")
    requires typed.JObj? && typed.fields == param.fields + [("type", JStr("string"))]
    ensures SampleForType(param, clock) == SampleForType(typed, clock)
  {
    TypedLookups(param.fields, typed.fields);
    SampleFieldsAgree(param.fields, typed.fields, clock);
    SampleDict(param, clock);
    SampleDict(typed, clock);
  }
}

=== FILE: sanitize.dfy ===
/** File and folder names derived from URLs and path templates
    (`sanitize_filename`, `get_source_dir_name`). Each regular expression
    `re.sub(r"[^<class>]+", "_", s)` is a run-collapsing map: characters of
    the class are kept, every maximal run of other characters becomes one
    underscore. */
module Sanitize {
  import opened Text

  /** `[0-9A-Za-z._-]` for file names, `[0-9A-Za-z_-]` for folder names. */
  datatype CharClass = FileNameChars | DirNameChars

  predicate Allowed(cls: CharClass, c: char) {
    || ('0' <= c <= '9')
    || ('A' <= c <= 'Z')
    || ('a' <= c <= 'z')
    || c == '_'
    || c == '-'
    || (cls == FileNameChars && c == '.')
  }

  predicate Clean(cls: CharClass, s: string) {
    forall i :: 0 <= i < |s| ==> Allowed(cls, s[i])
  }

  lemma CleanConcat(cls: CharClass, a: string, b: string)
    requires Clean(cls, a) && Clean(cls, b)
    ensures Clean(cls, a + b)
  {
    forall i | 0 <= i < |a + b| ensures Allowed(cls, (a + b)[i]) {
      if i < |a| {
        assert (a + b)[i] == a[i];
      } else {
        assert (a + b)[i] == b[i - |a|];
      }
    }
  }

  /** The length of the maximal run of disallowed characters `s` starts with. */
  function RunLength(cls: CharClass, s: string): (n: nat)
    ensures n <= |s|
    ensures forall i :: 0 <= i < n ==> !Allowed(cls, s[i])
    ensures n < |s| ==> Allowed(cls, s[n])
  {
    if |s| > 0 && !Allowed(cls, s[0]) then 1 + RunLength(cls, s[1..]) else 0
  }

  /** `re.sub(r"[^<cls>]+", "_", s)`. */
  function Collapse(cls: CharClass, s: string): (r: string)
    ensures Clean(cls, r)
    ensures |r| <= |s|
    decreases |s|
  {
    if |s| == 0 then ""
    else if Allowed(cls, s[0]) then [s[0]] + Collapse(cls, s[1..])
    else
      var n := RunLength(cls, s);
      "_" + Collapse(cls, s[n..])
  }

  /** A string made only of allowed characters is left unchanged. */
  lemma {:induction false} CollapseClean(cls: CharClass, s: string)
    requires Clean(cls, s)
    ensures Collapse(cls, s) == s
    decreases |s|
  {
    if |s| > 0 {
      CollapseClean(cls, s[1..]);
      assert s == [s[0]] + s[1..];
    }
  }

  /** Collapsing twice is collapsing once. */
  lemma CollapseIdempotent(cls: CharClass, s: string)
    ensures Collapse(cls, Collapse(cls, s)) == Collapse(cls, s)
  {
    CollapseClean(cls, Collapse(cls, s));
  }

  /** A maximal run of disallowed characters, however long, becomes a single
      underscore, and the clean text around it is kept. */
  lemma {:induction false} CollapseRun(cls: CharClass, x: string, run: string, y: string)
    requires Clean(cls, x)
    requires |run| > 0 && forall i :: 0 <= i < |run| ==> !Allowed(cls, run[i])
    requires |y| > 0 ==> Allowed(cls, y[0])
    ensures Collapse(cls, x + run + y) == x + "_" + Collapse(cls, y)
    decreases |x|
  {
    var s := x + run + y;
    if |x| == 0 {
      assert s == run + y;
      RunOfRun(cls, run, y);
      assert s[|run|..] == y;
    } else {
      var t := x[1..] + run + y;
      assert s == [x[0]] + t;
      assert Clean(cls, x[1..]) by {
        forall i | 0 <= i < |x[1..]| ensures Allowed(cls, x[1..][i]) {
          assert x[1..][i] == x[i + 1];
        }
      }
      CollapseCons(cls, x[0], t);
      CollapseRun(cls, x[1..], run, y);
      ConsConcat(x, "_", Collapse(cls, y));
    }
  }

  lemma ConsConcat<T>(x: seq<T>, a: seq<T>, b: seq<T>)
    requires |x| > 0
    ensures [x[0]] + (x[1..] + a + b) == x + a + b
  {
    assert x == [x[0]] + x[1..];
  }

  lemma CollapseCons(cls: CharClass, c: char, t: string)
    requires Allowed(cls, c)
    ensures Collapse(cls, [c] + t) == [c] + Collapse(cls, t)
  {
    assert ([c] + t)[1..] == t;
  }

  lemma {:induction false} RunOfRun(cls: CharClass, run: string, y: string)
    requires forall i :: 0 <= i < |run| ==> !Allowed(cls, run[i])
    requires |y| > 0 ==> Allowed(cls, y[0])
    ensures RunLength(cls, run + y) == |run|
    decreases |run|
  {
    if |run| > 0 {
      assert (run + y)[1..] == run[1..] + y;
      RunOfRun(cls, run[1..], y);
    } else {
      assert run + y == y;
    }
  }

  /** A word of allowed characters other than `_` at the start of the result
      was at the start of the input. */
  lemma {:induction false} CollapsePrefix(cls: CharClass, s: string, w: string)
    requires Clean(cls, w) && '_' !in w
    requires StartsWith(Collapse(cls, s), w)
    ensures StartsWith(s, w)
    decreases |s|
  {
    if |w| > 0 {
      var c := Collapse(cls, s);
      assert c[0] == w[0];
      assert Allowed(cls, s[0]);
      assert c[1..] == Collapse(cls, s[1..]);
      assert StartsWith(Collapse(cls, s[1..]), w[1..]) by {
        assert c[1..][..|w| - 1] == c[..|w|][1..];
      }
      CollapsePrefix(cls, s[1..], w[1..]);
      assert s[..|w|] == [s[0]] + s[1..][..|w| - 1];
    }
  }

  /** Collapsing never creates a word of allowed characters without `_`:
      such a word found in the result was already in the input. */
  lemma {:induction false} CollapseKeepsWords(cls: CharClass, s: string, w: string)
    requires Clean(cls, w) && '_' !in w
    requires HasSubstring(Collapse(cls, s), w)
    ensures HasSubstring(s, w)
    decreases |s|
  {
    var c := Collapse(cls, s);
    if StartsWith(c, w) {
      CollapsePrefix(cls, s, w);
    } else {
      assert |c| > 0 && HasSubstring(c[1..], w);
      if Allowed(cls, s[0]) {
        assert c[1..] == Collapse(cls, s[1..]);
        CollapseKeepsWords(cls, s[1..], w);
      } else {
        var n := RunLength(cls, s);
        assert c[1..] == Collapse(cls, s[n..]);
        CollapseKeepsWords(cls, s[n..], w);
        HasSubstringSuffix(s, n, w);
      }
    }
  }

  /** `sanitize_filename`. */
  function SanitizeFilename(name: string): (r: string)
    ensures Clean(FileNameChars, r)
  {
    Collapse(FileNameChars, name)
  }

  const Providers: seq<string> := ["twse", "tpex", "taifex"]

  predicate NamesProvider(url: string) {
    HasSubstring(url, "twse") || HasSubstring(url, "tpex") || HasSubstring(url, "taifex")
  }

  /** `get_source_dir_name`: the first provider, in the order twse, tpex,
      taifex, whose name occurs in the URL; otherwise the collapsed URL. */
  function SourceDirName(url: string): (r: string)
    ensures Clean(DirNameChars, r)
    ensures HasSubstring(url, "twse") ==> r == "twse"
    ensures !HasSubstring(url, "twse") && HasSubstring(url, "tpex") ==> r == "tpex"
    ensures !HasSubstring(url, "twse") && !HasSubstring(url, "tpex") && HasSubstring(url, "taifex") ==> r == "taifex"
    ensures !NamesProvider(url) ==> r == Collapse(DirNameChars, url)
  {
    if HasSubstring(url, "twse") then "twse"
    else if HasSubstring(url, "tpex") then "tpex"
    else if HasSubstring(url, "taifex") then "taifex"
    else Collapse(DirNameChars, url)
  }

  /** The folder is a provider's exactly when the URL names a provider: the
      fallback can never produce a provider name by accident. */
  lemma SourceDirNameProvider(url: string)
    ensures SourceDirName(url) in Providers <==> NamesProvider(url)
  {
    if !NamesProvider(url) && SourceDirName(url) in Providers {
      var r := SourceDirName(url);
      assert StartsWith(r, r);
      assert HasSubstring(r, r);
      CollapseKeepsWords(DirNameChars, url, r);
      assert false;
    }
  }

  lemma {:induction false} FirstCharAbsent(s: string, w: string)
    requires |w| > 0 && w[0] !in s
    ensures !HasSubstring(s, w)
    decreases |s|
  {
    if |s| > 0 {
      assert s[0] != w[0];
      FirstCharAbsent(s[1..], w);
    }
  }

  /** `w` does not occur in `s` when `s` starts differently and the first
      character of `w` occurs nowhere after the start of `s`. */
  lemma NotAfterFirst(s: string, w: string)
    requires |s| > 0 && |w| > 0 && !StartsWith(s, w) && w[0] !in s[1..]
    ensures !HasSubstring(s, w)
  {
    FirstCharAbsent(s[1..], w);
  }

  /** A folder name maps to itself. */
  lemma SourceDirNameIdempotent(url: string)
    ensures SourceDirName(SourceDirName(url)) == SourceDirName(url)
  {
    var r := SourceDirName(url);
    if NamesProvider(url) {
      assert r in Providers;
      assert StartsWith(r, r);
      assert HasSubstring(r, r);
      if r == "tpex" {
        NotAfterFirst("tpex", "twse");
      } else if r == "taifex" {
        assert "taifex"[..4] == "taif";
        NotAfterFirst("taifex", "twse");
        NotAfterFirst("taifex", "tpex");
      }
    } else {
      if NamesProvider(r) {
        if HasSubstring(r, "twse") {
          CollapseKeepsWords(DirNameChars, url, "twse");
        } else if HasSubstring(r, "tpex") {
          CollapseKeepsWords(DirNameChars, url, "tpex");
        } else {
          CollapseKeepsWords(DirNameChars, url, "taifex");
        }
      }
      CollapseIdempotent(DirNameChars, url);
    }
  }
}

=== FILE: schema.dfy ===
/** The schema synthesizer (`make_sample_body_from_schema`): a representative
    JSON value for a Swagger 2 / OpenAPI 3 schema, following `$ref` links into
    a definitions table, recursing into object properties and array items,
    and falling back to type- and format-driven leaves. */
module Schema {
  import opened JsonModel
  import opened Text
  import opened PyOps
  import opened Sampler

  /* ---------------------------------------------------------------------- */
  /* `$ref` grammar                                                         */
  /* ---------------------------------------------------------------------- */

  /** What `#/?(?:definitions|components/schemas)?` can match: `#`, an
      optional `/`, then nothing, `definitions` or `components/schemas`. */
  const RefPrefixes: seq<string> :=
    ["#", "#/", "#definitions", "#/definitions", "#components/schemas", "#/components/schemas"]

  /** `re.match(r"#/?(?:definitions|components/schemas)?/([^/]+)$", ref)`
      succeeds with group 1 equal to `key`. (`$` may also match before a
      final newline, but `[^/]+` is greedy and takes that newline too, so
      the group always runs to the end of the string.) */
  predicate RefMatches(ref: string, prefix: string, key: string) {
    && prefix in RefPrefixes
    && |key| > 0
    && '/' !in key
    && ref == prefix + "/" + key
  }

  /** The position of the last `/` in `s`. */
  function LastSlash(s: string): (r: Option<nat>)
    ensures r.Some? ==> r.value < |s| && s[r.value] == '/' && '/' !in s[r.value + 1..]
    ensures r.None? ==> '/' !in s
  {
    if |s| == 0 then None
    else if s[|s| - 1] == '/' then Some(|s| - 1)
    else
      var r := LastSlash(s[..|s| - 1]);
      assert s == s[..|s| - 1] + [s[|s| - 1]];
      r
  }

  /** The explicit parser standing in for the regex: the key is whatever
      follows the last `/`, and what precedes that `/` must be one of the
      prefixes. */
  function ParseRef(ref: string): (r: Option<string>)
    ensures r.Some? ==> exists prefix :: RefMatches(ref, prefix, r.value)
  {
    match LastSlash(ref)
    case None => None
    case Some(i) =>
      if ref[..i] in RefPrefixes && i + 1 < |ref| then
        assert ref == ref[..i] + "/" + ref[i + 1..];
        assert RefMatches(ref, ref[..i], ref[i + 1..]);
        Some(ref[i + 1..])
      else None
  }

  lemma {:induction false} LastSlashOf(prefix: string, key: string)
    requires '/' !in key
    ensures LastSlash(prefix + "/" + key) == Some(|prefix|)
    decreases |key|
  {
    var s := prefix + "/" + key;
    if |key| > 0 {
      assert s[|s| - 1] == key[|key| - 1];
      assert s[..|s| - 1] == prefix + "/" + key[..|key| - 1];
      LastSlashOf(prefix, key[..|key| - 1]);
    }
  }

  /** The parser accepts exactly the strings the regex matches, and returns
      the regex's group. */
  lemma ParseRefMatches(ref: string, prefix: string, key: string)
    requires RefMatches(ref, prefix, key)
    ensures ParseRef(ref) == Some(key)
  {
    LastSlashOf(prefix, key);
    assert ref[..|prefix|] == prefix;
    assert ref[|prefix| + 1..] == key;
  }

  /** Different prefixes never give the same reference two readings. */
  lemma RefMatchUnique(ref: string, p1: string, k1: string, p2: string, k2: string)
    requires RefMatches(ref, p1, k1) && RefMatches(ref, p2, k2)
    ensures p1 == p2 && k1 == k2
  {
    ParseRefMatches(ref, p1, k1);
    ParseRefMatches(ref, p2, k2);
    assert k1 == k2;
    assert |p1| == |p2|;
    assert p1 == ref[..|p1|];
    assert p2 == ref[..|p2|];
  }

  /* ---------------------------------------------------------------------- */
  /* `$ref` resolution                                                      */
  /* ---------------------------------------------------------------------- */

  /** The definitions key whose entry line 86 ends up using:
      `definitions.get(key) or definitions.get(key.replace('"', ''))` picks
      the first name whose entry is truthy. */
  function ResolvedName(ref: string, fields: Fields): (r: Option<string>)
    ensures r.Some? ==> Truthy(GetOr(fields, r.value, JNull))
    ensures r.Some? ==> ParseRef(ref).Some?
  {
    match ParseRef(ref)
    case None => None
    case Some(key) =>
      if Truthy(GetOr(fields, key, JNull)) then Some(key)
      else if Truthy(GetOr(fields, RemoveChar(key, '"'), JNull)) then Some(RemoveChar(key, '"'))
      else None
  }

  /** `definitions.get(key) or definitions.get(key.replace('"', ''))` is
      `sub`, a truthy entry. */
  predicate NamedBy(fields: Fields, key: string, sub: Json) {
    || Lookup(fields, key) == Some(sub)
    || (!Truthy(GetOr(fields, key, JNull)) && Lookup(fields, RemoveChar(key, '"')) == Some(sub))
  }

  /** Lines 82-87: the definition a `$ref` value leads to, if any. The regex
      raises on a non-string reference and `.get` on a truthy non-dict table. */
  function ResolveRef(ref: Json, defs: Json): (r: Result<Option<Json>>)
    ensures r.Raise? <==> !ref.JStr? || (ParseRef(ref.s).Some? && Truthy(defs) && !defs.JObj?)
    ensures r.Ok? && r.value.Some? ==>
              && Truthy(r.value.value)
              && defs.JObj?
              && ParseRef(ref.s).Some?
              && NamedBy(defs.fields, ParseRef(ref.s).value, r.value.value)
  {
    if !ref.JStr? then Raise(TypeError)
    else if ParseRef(ref.s).None? || !Truthy(defs) then Ok(None)
    else if !defs.JObj? then Raise(AttributeError)
    else
      match ResolvedName(ref.s, defs.fields)
      case None => Ok(None)
      case Some(n) => Ok(Some(GetOr(defs.fields, n, JNull)))
  }

  /** A reference resolves exactly when it is a string matching the grammar,
      the table is a dict and the key (or the key without `"`) has a truthy
      entry; the entry is then the one under the resolved name. */
  lemma ResolveRefByName(ref: Json, defs: Json)
    ensures (ResolveRef(ref, defs).Ok? && ResolveRef(ref, defs).value.Some?)
        <==> ref.JStr? && defs.JObj? && ResolvedName(ref.s, defs.fields).Some?
    ensures ref.JStr? && defs.JObj? && ResolvedName(ref.s, defs.fields).Some? ==>
              ResolveRef(ref, defs) == Ok(Some(GetOr(defs.fields, ResolvedName(ref.s, defs.fields).value, JNull)))
  {
    if ref.JStr? && defs.JObj? && ResolvedName(ref.s, defs.fields).Some? {
      ResolveRefNamed(ref, defs, ResolvedName(ref.s, defs.fields).value);
    } else {
      ResolveRefUnnamed(ref, defs);
    }
  }

  lemma ResolveRefNamed(ref: Json, defs: Json, n: string)
    requires ref.JStr? && defs.JObj? && ResolvedName(ref.s, defs.fields) == Some(n)
    ensures ResolveRef(ref, defs) == Ok(Some(GetOr(defs.fields, n, JNull)))
  {
    assert Truthy(defs) by {
      assert Truthy(GetOr(defs.fields, n, JNull));
    }
  }

  lemma ResolveRefUnnamed(ref: Json, defs: Json)
    requires !(ref.JStr? && defs.JObj? && ResolvedName(ref.s, defs.fields).Some?)
    ensures ResolveRef(ref, defs).Raise? || ResolveRef(ref, defs) == Ok(None)
  {
  }

  /* ---------------------------------------------------------------------- */
  /* Synthesis                                                              */
  /* ---------------------------------------------------------------------- */

  /** Lines 90-92: `schema.get('type')`, read as `'object'` when it is falsy
      and the schema declares `properties`. */
  function EffectiveType(fields: Fields): (t: Json)
    ensures Truthy(GetOr(fields, "type", JNull)) ==> t == GetOr(fields, "type", JNull)
    ensures !Truthy(GetOr(fields, "type", JNull)) && HasKey(fields, "properties") ==> t == JStr("object")
    ensures Truthy(t) <==> Truthy(GetOr(fields, "type", JNull)) || HasKey(fields, "properties")
  {
    var t := GetOr(fields, "type", JNull);
    if !Truthy(t) && HasKey(fields, "properties") then JStr("object") else t
  }

  /** `make_sample_body_from_schema(schema, definitions)`. `fuel` bounds the
      number of `$ref` links followed in a row; when it runs out the result
      is `{}`. Property and item recursion is structural. */
  function Synth(schema: Json, defs: Json, clock: Clock, fuel: nat): (r: Result<Json>)
    ensures !Truthy(schema) ==> r == Ok(JObj([]))
    ensures Truthy(schema) && !schema.JObj? ==> r.Raise?
    decreases fuel, Size(schema), 2
  {
    if !Truthy(schema) then Ok(JObj([]))
    else if !schema.JObj? then Raise(NonDictError(schema, "$ref"))
    else
      match Lookup(schema.fields, "$ref")
      case Some(ref) => SynthRef(ref, defs, clock, fuel)
      case None => SynthTyped(schema.fields, defs, clock, fuel)
  }

  /** Lines 82-89: follow a `$ref` when it resolves, `{}` otherwise. */
  function SynthRef(ref: Json, defs: Json, clock: Clock, fuel: nat): (r: Result<Json>)
    ensures r.Raise? ==> ResolveRef(ref, defs) != Ok(None)
    decreases fuel, 0, 0
  {
    var sub :- ResolveRef(ref, defs);
    match sub
    case None => Ok(JObj([]))
    case Some(d) => if fuel == 0 then Ok(JObj([])) else Synth(d, defs, clock, fuel - 1)
  }

  /** Lines 90-115: a non-empty dict schema without `$ref`. */
  function SynthTyped(fields: Fields, defs: Json, clock: Clock, fuel: nat): (r: Result<Json>)
    requires |fields| > 0
    ensures r.Ok? && EffectiveType(fields) == JStr("object") ==> r.value.JObj?
    ensures r.Ok? && EffectiveType(fields) == JStr("array") ==> r.value.JArr? && |r.value.items| == 1
    decreases fuel, FieldsSize(fields) + 1, 1
  {
    var t := EffectiveType(fields);
    if t == JStr("object") then
      match GetOr(fields, "properties", JObj([]))
      case JObj(props) => SynthProps(props, defs, clock, fuel, [])
      case _ => Raise(AttributeError)
    else if t == JStr("array") then
      GetOrSmaller(fields, "items", JObj([]));
      var item :- Synth(GetOr(fields, "items", JObj([])), defs, clock, fuel);
      Ok(JArr([item]))
    else if t == JStr("integer") || t == JStr("number") then Ok(JInt(1))
    else if t == JStr("boolean") then Ok(JBool(true))
    else SynthLeaf(fields, clock)
  }

  /** Lines 108-115: a schema of any other type. */
  function SynthLeaf(fields: Fields, clock: Clock): (r: Result<Json>)
    ensures r.Raise? <==> Lookup(fields, "enum") == Some(JArr([]))
                          && GetOr(fields, "format", JStr("")) !in {JStr("date"), JStr("date-time")}
    ensures r.Ok? ==>
              || Truthy(r.value)
              || r.value in {JStr(clock.date), JStr(clock.dateTime)}
              || (match Lookup(fields, "enum")
                  case Some(JArr(items)) => |items| > 0 && r.value == items[0]
                  case _ => false)
  {
    var fmt := GetOr(fields, "format", JStr(""));
    if fmt == JStr("date") then Ok(JStr(clock.date))
    else if fmt == JStr("date-time") then Ok(JStr(clock.dateTime))
    else match Lookup(fields, "enum")
      case Some(JArr(items)) => if |items| == 0 then Raise(IndexError) else Ok(items[0])
      case _ =>
        var example := GetOr(fields, "example", JNull);
        Ok(if Truthy(example) then example else JStr("sample"))
  }

  /** Lines 94-98: `obj[k] = make_sample_body_from_schema(v, ...)` for each
      property in declaration order, on top of the mapping built so far. */
  function SynthProps(props: Fields, defs: Json, clock: Clock, fuel: nat, acc: Fields): (r: Result<Json>)
    ensures r.Ok? ==> r.value.JObj?
    decreases fuel, FieldsSize(props), 0
  {
    if |props| == 0 then Ok(JObj(acc))
    else
      var v :- Synth(props[0].1, defs, clock, fuel);
      SynthProps(props[1..], defs, clock, fuel, Set(acc, props[0].0, v))
  }

  /** The reference reading of an object schema: each property paired with
      its own synthesis, or the first error among them. */
  function SynthEach(props: Fields, defs: Json, clock: Clock, fuel: nat): (r: Result<Fields>)
    ensures r.Ok? ==> |r.value| == |props|
    ensures r.Ok? ==> forall i :: 0 <= i < |props| ==>
              r.value[i].0 == props[i].0 && Synth(props[i].1, defs, clock, fuel) == Ok(r.value[i].1)
    ensures r.Raise? ==> exists i :: 0 <= i < |props| && Synth(props[i].1, defs, clock, fuel) == Raise(r.error)
    ensures (forall i :: 0 <= i < |props| ==> Synth(props[i].1, defs, clock, fuel).Ok?) ==> r.Ok?
  {
    if |props| == 0 then Ok([])
    else
      var v :- Synth(props[0].1, defs, clock, fuel);
      var rest :- SynthEach(props[1..], defs, clock, fuel);
      assert forall i :: 1 <= i < |props| ==> props[1..][i - 1] == props[i];
      Ok([(props[0].0, v)] + rest)
  }

  /* ---------------------------------------------------------------------- */
  /* Properties                                                             */
  /* ---------------------------------------------------------------------- */

  /** No key of `a` is a key of `b`. */
  predicate KeysApart(a: Fields, b: Fields) {
    forall i, j :: 0 <= i < |a| && 0 <= j < |b| ==> a[i].0 != b[j].0
  }

  lemma NotHasKey(fields: Fields, k: string)
    requires forall i :: 0 <= i < |fields| ==> fields[i].0 != k
    ensures !HasKey(fields, k)
  {
    HasKeyKeys(fields, k);
  }

  /** Folding `obj[k] = ...` over properties with distinct names builds the
      reference mapping, appended to what was there. */
  lemma {:induction false} SynthPropsEach(props: Fields, defs: Json, clock: Clock, fuel: nat, acc: Fields)
    requires DistinctKeys(props) && KeysApart(acc, props)
    ensures SynthProps(props, defs, clock, fuel, acc)
         == match SynthEach(props, defs, clock, fuel)
            case Ok(vs) => Ok(JObj(acc + vs))
            case Raise(e) => Raise(e)
    decreases |props|
  {
    if |props| == 0 {
      assert acc + [] == acc;
    } else {
      var k, s := props[0].0, props[0].1;
      var r := Synth(s, defs, clock, fuel);
      if r.Ok? {
        NotHasKey(acc, k);
        SetFresh(acc, k, r.value);
        var acc' := acc + [(k, r.value)];
        assert SynthProps(props, defs, clock, fuel, acc) == SynthProps(props[1..], defs, clock, fuel, acc');
        KeysApartStep(acc, props, r.value);
        SynthPropsEach(props[1..], defs, clock, fuel, acc');
        SynthEachStep(props, defs, clock, fuel);
        match SynthEach(props[1..], defs, clock, fuel)
        case Ok(vs) =>
          AppendAssoc(acc, (k, r.value), vs);
        case Raise(e) =>
          assert SynthEach(props, defs, clock, fuel) == Raise(e);
      } else {
        assert SynthProps(props, defs, clock, fuel, acc) == Raise(r.error);
        assert SynthEach(props, defs, clock, fuel) == Raise(r.error);
      }
    }
  }

  lemma AppendAssoc(a: Fields, x: (string, Json), b: Fields)
    ensures a + [x] + b == a + ([x] + b)
  {
  }

  lemma KeysApartStep(acc: Fields, props: Fields, v: Json)
    requires |props| > 0 && DistinctKeys(props) && KeysApart(acc, props)
    ensures KeysApart(acc + [(props[0].0, v)], props[1..])
  {
    var acc' := acc + [(props[0].0, v)];
    forall i, j | 0 <= i < |acc'| && 0 <= j < |props[1..]|
      ensures acc'[i].0 != props[1..][j].0
    {
      assert props[1..][j] == props[j + 1];
    }
  }

  lemma SynthEachStep(props: Fields, defs: Json, clock: Clock, fuel: nat)
    requires |props| > 0 && Synth(props[0].1, defs, clock, fuel).Ok?
    ensures SynthEach(props, defs, clock, fuel)
         == match SynthEach(props[1..], defs, clock, fuel)
            case Ok(vs) => Ok([(props[0].0, Synth(props[0].1, defs, clock, fuel).value)] + vs)
            case Raise(e) => Raise(e)
  {
  }

  /** A `$ref` takes precedence over every other field: two dict schemas with
      the same reference synthesize alike. */
  lemma SynthRefFirst(s1: Json, s2: Json, ref: Json, defs: Json, clock: Clock, fuel: nat)
    requires s1.JObj? && s2.JObj?
    requires Lookup(s1.fields, "$ref") == Some(ref) && Lookup(s2.fields, "$ref") == Some(ref)
    ensures Synth(s1, defs, clock, fuel) == Synth(s2, defs, clock, fuel)
  {
  }

  /** A reference that matches the grammar and names a truthy definition
      (directly, or once `"` is removed from the key) synthesizes as that
      definition. */
  lemma SynthRefFollows(schema: Json, ref: Json, defs: Json, key: string, sub: Json, clock: Clock, fuel: nat)
    requires schema.JObj? && Lookup(schema.fields, "$ref") == Some(ref)
    requires ref.JStr? && ParseRef(ref.s) == Some(key)
    requires defs.JObj? && Truthy(sub) && NamedBy(defs.fields, key, sub)
    ensures Synth(schema, defs, clock, fuel + 1) == Synth(sub, defs, clock, fuel)
  {
    var n := if Truthy(GetOr(defs.fields, key, JNull)) then key else RemoveChar(key, '"');
    assert ResolvedName(ref.s, defs.fields) == Some(n);
    ResolveRefNamed(ref, defs, n);
    SynthRefUnfold(ref, defs, clock, fuel);
    SynthDispatchRef(schema, ref, defs, clock, fuel + 1);
  }

  lemma SynthDispatchRef(schema: Json, ref: Json, defs: Json, clock: Clock, fuel: nat)
    requires schema.JObj? && Lookup(schema.fields, "$ref") == Some(ref)
    ensures Synth(schema, defs, clock, fuel) == SynthRef(ref, defs, clock, fuel)
  {
  }

  /** Every other string reference gives `{}`: one outside the grammar, an
      empty table, or a key with no truthy entry. */
  lemma SynthRefEmpty(schema: Json, ref: Json, defs: Json, clock: Clock, fuel: nat)
    requires schema.JObj? && Lookup(schema.fields, "$ref") == Some(ref) && ref.JStr?
    requires || ParseRef(ref.s).None?
             || !Truthy(defs)
             || (defs.JObj? && ResolvedName(ref.s, defs.fields).None?)
    ensures Synth(schema, defs, clock, fuel) == Ok(JObj([]))
  {
  }

  /** A reference that is not a string, or a truthy table that is not a
      dict, makes the synthesizer raise. */
  lemma SynthRefRaises(schema: Json, ref: Json, defs: Json, clock: Clock, fuel: nat)
    requires schema.JObj? && Lookup(schema.fields, "$ref") == Some(ref)
    requires !ref.JStr? || (ParseRef(ref.s).Some? && Truthy(defs) && !defs.JObj?)
    ensures Synth(schema, defs, clock, fuel).Raise?
  {
  }

  /** An object schema (declared, or implied by `properties` under a falsy
      type) gives a mapping with exactly the declared property names, in
      order, each bound to that property's own synthesis. */
  lemma SynthObject(schema: Json, props: Fields, defs: Json, clock: Clock, fuel: nat)
    requires schema.JObj? && !HasKey(schema.fields, "$ref")
    requires || GetOr(schema.fields, "type", JNull) == JStr("object")
             || (!Truthy(GetOr(schema.fields, "type", JNull)) && HasKey(schema.fields, "properties"))
    requires GetOr(schema.fields, "properties", JObj([])) == JObj(props) && DistinctKeys(props)
    ensures Synth(schema, defs, clock, fuel).Ok? <==> SynthEach(props, defs, clock, fuel).Ok?
    ensures Synth(schema, defs, clock, fuel).Ok? ==>
              Synth(schema, defs, clock, fuel) == Ok(JObj(SynthEach(props, defs, clock, fuel).value))
  {
    assert EffectiveType(schema.fields) == JStr("object");
    SynthObjectStep(schema, props, defs, clock, fuel);
    SynthPropsEach(props, defs, clock, fuel, []);
    match SynthEach(props, defs, clock, fuel)
    case Ok(vs) => assert [] + vs == vs;
    case Raise(_) =>
  }

  /** Declared `properties` that are not a dict make `.items()` raise. */
  lemma SynthObjectBadProperties(schema: Json, defs: Json, clock: Clock, fuel: nat)
    requires schema.JObj? && !HasKey(schema.fields, "$ref")
    requires EffectiveType(schema.fields) == JStr("object")
    requires !GetOr(schema.fields, "properties", JObj([])).JObj?
    ensures Synth(schema, defs, clock, fuel) == Raise(AttributeError)
  {
  }

  /** An array schema gives a one-element list holding the synthesis of its
      `items` (of `{}` when there are none, which gives `[{}]`). */
  lemma SynthArray(schema: Json, defs: Json, clock: Clock, fuel: nat)
    requires schema.JObj? && !HasKey(schema.fields, "$ref")
    requires GetOr(schema.fields, "type", JNull) == JStr("array")
    ensures var item := Synth(GetOr(schema.fields, "items", JObj([])), defs, clock, fuel);
            Synth(schema, defs, clock, fuel) == if item.Ok? then Ok(JArr([item.value])) else Raise(item.error)
    ensures !HasKey(schema.fields, "items") ==> Synth(schema, defs, clock, fuel) == Ok(JArr([JObj([])]))
  {
  }

  /** Numeric and boolean leaves. */
  lemma SynthScalar(schema: Json, defs: Json, clock: Clock, fuel: nat)
    requires schema.JObj? && !HasKey(schema.fields, "$ref")
    ensures GetOr(schema.fields, "type", JNull) in {JStr("integer"), JStr("number")} ==>
              Synth(schema, defs, clock, fuel) == Ok(JInt(1))
    ensures GetOr(schema.fields, "type", JNull) == JStr("boolean") ==>
              Synth(schema, defs, clock, fuel) == Ok(JBool(true))
  {
  }

  /** Any other type: the date formats first, then `enum[0]` when `enum` is a
      list (an empty one raises `IndexError`), then a truthy `example`, then
      `"sample"` — so a falsy example such as `0` or `""` gives `"sample"`. */
  lemma SynthOtherType(schema: Json, defs: Json, clock: Clock, fuel: nat)
    requires schema.JObj? && |schema.fields| > 0 && !HasKey(schema.fields, "$ref")
    requires EffectiveType(schema.fields) !in {JStr("object"), JStr("array"), JStr("integer"), JStr("number"), JStr("boolean")}
    ensures var fmt := GetOr(schema.fields, "format", JStr(""));
            && (fmt == JStr("date") ==> Synth(schema, defs, clock, fuel) == Ok(JStr(clock.date)))
            && (fmt == JStr("date-time") ==> Synth(schema, defs, clock, fuel) == Ok(JStr(clock.dateTime)))
            && (fmt !in {JStr("date"), JStr("date-time")} ==>
                  Synth(schema, defs, clock, fuel)
                  == match Lookup(schema.fields, "enum")
                     case Some(JArr(items)) => if |items| > 0 then Ok(items[0]) else Raise(IndexError)
                     case _ =>
                       var example := GetOr(schema.fields, "example", JNull);
                       Ok(if Truthy(example) then example else JStr("sample")))
  {
    assert Synth(schema, defs, clock, fuel) == SynthLeaf(schema.fields, clock);
  }

  /** On a parameter declaration with no `$ref`, `properties`, `items`,
      `enum`, `pattern` or `example`, whose type is not `object` or `array`,
      both samplers agree. */
  lemma SamplersAgree(param: Json, defs: Json, clock: Clock, fuel: nat)
    requires param.JObj? && |param.fields| > 0
    requires !HasKey(param.fields, "$ref") && !HasKey(param.fields, "properties")
    requires !HasKey(param.fields, "enum") && !HasKey(param.fields, "pattern") && !HasKey(param.fields, "example")
    requires GetOr(param.fields, "type", JNull) !in {JStr("object"), JStr("array")}
    ensures Synth(param, defs, clock, fuel) == SampleForType(param, clock)
  {
    assert EnumHead(param.fields) == None;
  }

  /* ---------------------------------------------------------------------- */
  /* Fuel                                                                   */
  /* ---------------------------------------------------------------------- */

  /** A string reference into a dict table resolves, if at all, to a name
      ranked below `bound`. */
  predicate RefBelow(ref: Json, defs: Json, rank: map<string, nat>, bound: nat) {
    ref.JStr? && defs.JObj? ==>
      match ResolvedName(ref.s, defs.fields)
      case Some(n) => n in rank && rank[n] < bound
      case None => true
  }

  /** Every `$ref` the synthesizer can meet in `schema` before following a
      link (through properties and items) resolves to a name ranked below
      `bound`. */
  predicate RefsBelow(schema: Json, defs: Json, rank: map<string, nat>, bound: nat)
    decreases Size(schema), 1
  {
    schema.JObj? && |schema.fields| > 0 ==>
      match Lookup(schema.fields, "$ref")
      case Some(ref) => RefBelow(ref, defs, rank, bound)
      case None =>
        && (match GetOr(schema.fields, "properties", JObj([]))
            case JObj(props) => PropsBelow(props, defs, rank, bound)
            case _ => true)
        && (GetOrSmaller(schema.fields, "items", JObj([]));
            RefsBelow(GetOr(schema.fields, "items", JObj([])), defs, rank, bound))
  }

  predicate PropsBelow(props: Fields, defs: Json, rank: map<string, nat>, bound: nat)
    decreases FieldsSize(props), 0
  {
    |props| > 0 ==> RefsBelow(props[0].1, defs, rank, bound) && PropsBelow(props[1..], defs, rank, bound)
  }

  /** The table is acyclic: `rank` orders the definitions so that each one
      only refers to definitions of lower rank. */
  predicate Ranked(defs: Json, rank: map<string, nat>) {
    defs.JObj? ==> forall n :: n in rank ==> RefsBelow(GetOr(defs.fields, n, JNull), defs, rank, rank[n])
  }

  /** With an acyclic table, fuel beyond the rank bound changes nothing: the
      cut-off is never reached, so the result is the one the unguarded
      recursion computes. */
  lemma {:induction false} SynthFuel(schema: Json, defs: Json, rank: map<string, nat>, bound: nat,
                                     clock: Clock, fuel: nat, fuel': nat)
    requires Ranked(defs, rank) && RefsBelow(schema, defs, rank, bound)
    requires bound <= fuel <= fuel'
    ensures Synth(schema, defs, clock, fuel) == Synth(schema, defs, clock, fuel')
    decreases bound, Size(schema), 2
  {
    if Truthy(schema) && schema.JObj? {
      match Lookup(schema.fields, "$ref")
      case Some(ref) => SynthFuelRef(ref, defs, rank, bound, clock, fuel, fuel');
      case None => SynthFuelNested(schema, defs, rank, bound, clock, fuel, fuel');
    }
  }

  lemma {:induction false} SynthFuelRef(ref: Json, defs: Json, rank: map<string, nat>, bound: nat,
                                        clock: Clock, fuel: nat, fuel': nat)
    requires Ranked(defs, rank) && RefBelow(ref, defs, rank, bound)
    requires bound <= fuel <= fuel'
    ensures SynthRef(ref, defs, clock, fuel) == SynthRef(ref, defs, clock, fuel')
    decreases bound, 0, 0
  {
    if ref.JStr? && defs.JObj? && ResolvedName(ref.s, defs.fields).Some? {
      var n := ResolvedName(ref.s, defs.fields).value;
      var sub := GetOr(defs.fields, n, JNull);
      ResolveRefNamed(ref, defs, n);
      assert n in rank && rank[n] < bound;
      assert RefsBelow(sub, defs, rank, rank[n]);
      var f1: nat, f2: nat := fuel - 1, fuel' - 1;
      SynthFuel(sub, defs, rank, rank[n], clock, f1, f2);
      SynthRefLink(ref, defs, sub, clock, fuel, fuel', f1, f2);
    } else {
      ResolveRefUnnamed(ref, defs);
      SynthRefNoLink(ref, defs, clock, fuel, fuel');
    }
  }

  lemma SynthRefLink(ref: Json, defs: Json, sub: Json, clock: Clock, fuel: nat, fuel': nat, f1: nat, f2: nat)
    requires ResolveRef(ref, defs) == Ok(Some(sub)) && fuel == f1 + 1 && fuel' == f2 + 1
    requires Synth(sub, defs, clock, f1) == Synth(sub, defs, clock, f2)
    ensures SynthRef(ref, defs, clock, fuel) == SynthRef(ref, defs, clock, fuel')
  {
    SynthRefUnfold(ref, defs, clock, f1);
    SynthRefUnfold(ref, defs, clock, f2);
  }

  /** With fuel left, a reference that resolves gives its definition's
      synthesis, exceptions included. */
  lemma {:induction false} SynthRefUnfold(ref: Json, defs: Json, clock: Clock, f: nat)
    ensures ResolveRef(ref, defs).Ok? && ResolveRef(ref, defs).value.Some? ==>
              SynthRef(ref, defs, clock, f + 1) == Synth(ResolveRef(ref, defs).value.value, defs, clock, f)
  {
  }

  lemma SynthRefNoLink(ref: Json, defs: Json, clock: Clock, fuel: nat, fuel': nat)
    requires ResolveRef(ref, defs).Raise? || ResolveRef(ref, defs) == Ok(None)
    ensures SynthRef(ref, defs, clock, fuel) == SynthRef(ref, defs, clock, fuel')
  {
  }

  lemma {:induction false} SynthFuelNested(schema: Json, defs: Json, rank: map<string, nat>, bound: nat,
                                           clock: Clock, fuel: nat, fuel': nat)
    requires schema.JObj? && |schema.fields| > 0 && !HasKey(schema.fields, "$ref")
    requires Ranked(defs, rank) && RefsBelow(schema, defs, rank, bound)
    requires bound <= fuel <= fuel'
    ensures Synth(schema, defs, clock, fuel) == Synth(schema, defs, clock, fuel')
    decreases bound, Size(schema), 1
  {
    var fields := schema.fields;
    var t := EffectiveType(fields);
    if t == JStr("object") {
      match GetOr(fields, "properties", JObj([]))
      case JObj(props) =>
        assert PropsBelow(props, defs, rank, bound);
        SynthObjectStep(schema, props, defs, clock, fuel);
        SynthObjectStep(schema, props, defs, clock, fuel');
        SynthPropsFuel(props, defs, rank, bound, clock, fuel, fuel', []);
      case _ =>
        SynthObjectBadProperties(schema, defs, clock, fuel);
        SynthObjectBadProperties(schema, defs, clock, fuel');
    } else if t == JStr("array") {
      SynthArray(schema, defs, clock, fuel);
      SynthArray(schema, defs, clock, fuel');
      assert RefsBelow(GetOr(fields, "items", JObj([])), defs, rank, bound);
      SynthFuel(GetOr(fields, "items", JObj([])), defs, rank, bound, clock, fuel, fuel');
    } else {
      SynthFuelFree(schema, defs, clock, fuel, fuel');
    }
  }

  lemma SynthObjectStep(schema: Json, props: Fields, defs: Json, clock: Clock, fuel: nat)
    requires schema.JObj? && !HasKey(schema.fields, "$ref")
    requires EffectiveType(schema.fields) == JStr("object")
    requires GetOr(schema.fields, "properties", JObj([])) == JObj(props)
    ensures Synth(schema, defs, clock, fuel) == SynthProps(props, defs, clock, fuel, [])
  {
  }

  lemma SynthFuelFree(schema: Json, defs: Json, clock: Clock, fuel: nat, fuel': nat)
    requires schema.JObj? && !HasKey(schema.fields, "$ref")
    requires EffectiveType(schema.fields) !in {JStr("object"), JStr("array")}
    ensures Synth(schema, defs, clock, fuel) == Synth(schema, defs, clock, fuel')
  {
  }

  lemma {:induction false} SynthPropsFuel(props: Fields, defs: Json, rank: map<string, nat>, bound: nat,
                                          clock: Clock, fuel: nat, fuel': nat, acc: Fields)
    requires Ranked(defs, rank) && PropsBelow(props, defs, rank, bound)
    requires bound <= fuel <= fuel'
    ensures SynthProps(props, defs, clock, fuel, acc) == SynthProps(props, defs, clock, fuel', acc)
    decreases bound, FieldsSize(props), 0
  {
    if |props| > 0 {
      SynthFuel(props[0].1, defs, rank, bound, clock, fuel, fuel');
      var r := Synth(props[0].1, defs, clock, fuel);
      if r.Ok? {
        SynthPropsFuel(props[1..], defs, rank, bound, clock, fuel, fuel', Set(acc, props[0].0, r.value));
      }
    }
  }

  /** A definition that refers to itself has no unguarded result (Python
      exhausts its stack); with fuel, every depth gives `{}`. */
  lemma {:induction false} SynthSelfRef(schema: Json, defs: Json, key: string, clock: Clock, fuel: nat)
    requires |key| > 0 && '/' !in key
    requires defs.JObj? && Lookup(defs.fields, key) == Some(schema)
    requires schema.JObj? && Lookup(schema.fields, "$ref") == Some(JStr("#/definitions/" + key))
    ensures Synth(schema, defs, clock, fuel) == Ok(JObj([]))
    decreases fuel
  {
    var ref := "#/definitions/" + key;
    assert RefMatches(ref, "#/definitions", key);
    ParseRefMatches(ref, "#/definitions", key);
    assert ResolveRef(JStr(ref), defs) == Ok(Some(schema));
    if fuel > 0 {
      SynthSelfRef(schema, defs, key, clock, fuel - 1);
    }
  }
}

=== FILE: text.dfy ===
/** The handful of Python `str` operations the scripts use, on `seq<char>`.
    Case mapping is ASCII-only (see README, "Left out"). */
module Text {

  predicate StartsWith(s: string, p: string) {
    |p| <= |s| && s[..|p|] == p
  }

  predicate EndsWith(s: string, p: string) {
    |p| <= |s| && s[|s| - |p|..] == p
  }

  /** Python's `w in s` on strings. */
  predicate HasSubstring(s: string, w: string)
    decreases |s|
  {
    StartsWith(s, w) || (|s| > 0 && HasSubstring(s[1..], w))
  }

  lemma {:induction false} HasSubstringAt(s: string, i: nat, w: string)
    requires i + |w| <= |s|
    requires s[i..i + |w|] == w
    ensures HasSubstring(s, w)
    decreases i
  {
    if i == 0 {
      assert StartsWith(s, w);
    } else {
      assert s[1..][i - 1..i - 1 + |w|] == s[i..i + |w|];
      HasSubstringAt(s[1..], i - 1, w);
    }
  }

  /** An occurrence in a suffix is an occurrence in the whole string. */
  lemma {:induction false} HasSubstringSuffix(s: string, k: nat, w: string)
    requires k <= |s|
    requires HasSubstring(s[k..], w)
    ensures HasSubstring(s, w)
    decreases k
  {
    if k > 0 {
      assert s[1..][k - 1..] == s[k..];
      HasSubstringSuffix(s[1..], k - 1, w);
    }
  }

  /** `s.replace(pat, rep)`: every non-overlapping occurrence of `pat`,
      scanning left to right, is replaced by `rep`. */
  function Replace(s: string, pat: string, rep: string): string
    requires |pat| > 0
    decreases |s|
  {
    if |s| == 0 then ""
    else if StartsWith(s, pat) then rep + Replace(s[|pat|..], pat, rep)
    else [s[0]] + Replace(s[1..], pat, rep)
  }

  /** A string in which `pat` does not occur is left unchanged. */
  lemma {:induction false} ReplaceAbsent(s: string, pat: string, rep: string)
    requires |pat| > 0
    requires !HasSubstring(s, pat)
    ensures Replace(s, pat, rep) == s
    decreases |s|
  {
    if |s| > 0 {
      ReplaceAbsent(s[1..], pat, rep);
      assert s == [s[0]] + s[1..];
    }
  }

  /** The first occurrence is replaced in place, and replacing goes on after
      it: no occurrence of `pat` may start inside `x`. */
  lemma {:induction false} ReplaceFirst(x: string, pat: string, y: string, rep: string)
    requires |pat| > 0
    requires forall i :: 0 <= i < |x| ==> !StartsWith((x + pat + y)[i..], pat)
    ensures Replace(x + pat + y, pat, rep) == x + rep + Replace(y, pat, rep)
    decreases |x|
  {
    var s := x + pat + y;
    if |x| == 0 {
      assert s == pat + y;
      assert StartsWith(s, pat);
      assert s[|pat|..] == y;
    } else {
      assert s[0..] == s;
      assert !StartsWith(s, pat);
      var t := x[1..] + pat + y;
      assert s[1..] == t;
      forall i | 0 <= i < |x[1..]|
        ensures !StartsWith(t[i..], pat)
      {
        assert t[i..] == s[i + 1..];
      }
      ReplaceFirst(x[1..], pat, y, rep);
      assert x == [x[0]] + x[1..];
    }
  }

  /** An earlier, different occurrence of the pattern's first character does
      not stop the replacement: `"/{a}/{b}".replace("{b}", "1")`. */
  lemma ReplaceAfterOtherPlaceholder()
    ensures Replace("/{a}/{b}", "{b}", "1") == "/{a}/1"
  {
    var s, x, pat := "/{a}/{b}", "/{a}/", "{b}";
    assert x + pat + "" == s;
    forall i | 0 <= i < |x|
      ensures !StartsWith(s[i..], pat)
    {
      assert s[i..][1] == s[i + 1] != 'b';
    }
    ReplaceFirst(x, pat, "", "1");
  }

  /** `s.lstrip(c)`. */
  function LStrip(s: string, c: char): (r: string)
    ensures |r| <= |s| && s[|s| - |r|..] == r
    ensures |r| > 0 ==> r[0] != c
    ensures forall i :: 0 <= i < |s| - |r| ==> s[i] == c
  {
    if |s| > 0 && s[0] == c then LStrip(s[1..], c) else s
  }

  /** `s.replace(c, '')` for a one-character `c`. */
  function RemoveChar(s: string, c: char): (r: string)
    ensures c !in r
    ensures c !in s ==> r == s
    ensures |r| + multiset(s)[c] == |s|
    decreases |s|
  {
    if |s| == 0 then ""
    else
      assert s == [s[0]] + s[1..];
      if s[0] == c then RemoveChar(s[1..], c)
      else [s[0]] + RemoveChar(s[1..], c)
  }

  /** Removing a character distributes over concatenation, so the characters
      kept stay in their order. */
  lemma {:induction false} RemoveCharAppend(a: string, b: string, c: char)
    ensures RemoveChar(a + b, c) == RemoveChar(a, c) + RemoveChar(b, c)
    decreases |a|
  {
    if |a| > 0 {
      var ab := a + b;
      assert ab[0] == a[0] && ab[1..] == a[1..] + b;
      RemoveCharAppend(a[1..], b, c);
      if a[0] != c {
        assert RemoveChar(ab, c) == [a[0]] + RemoveChar(ab[1..], c);
        assert RemoveChar(a, c) == [a[0]] + RemoveChar(a[1..], c);
        assert [a[0]] + (RemoveChar(a[1..], c) + RemoveChar(b, c)) == ([a[0]] + RemoveChar(a[1..], c)) + RemoveChar(b, c);
      }
    } else {
      assert a + b == b;
    }
  }

  function LowerChar(c: char): char {
    if 'A' <= c <= 'Z' then (c as int + 32) as char else c
  }

  function UpperChar(c: char): char {
    if 'a' <= c <= 'z' then (c as int - 32) as char else c
  }

  /** `s.lower()` on ASCII letters. */
  function Lower(s: string): (r: string)
    ensures |r| == |s|
    ensures forall i :: 0 <= i < |s| ==> r[i] == LowerChar(s[i])
  {
    if |s| == 0 then "" else [LowerChar(s[0])] + Lower(s[1..])
  }

  /** `s.upper()` on ASCII letters. */
  function Upper(s: string): (r: string)
    ensures |r| == |s|
    ensures forall i :: 0 <= i < |s| ==> r[i] == UpperChar(s[i])
  {
    if |s| == 0 then "" else [UpperChar(s[0])] + Upper(s[1..])
  }

  function DigitChar(d: nat): char
    requires d < 10
  {
    "0123456789"[d]
  }

  predicate IsDigit(c: char) {
    '0' <= c <= '9'
  }

  /** Decimal digits of a natural number, most significant first. */
  function NatToString(n: nat): (r: string)
    ensures |r| > 0
    ensures forall i :: 0 <= i < |r| ==> IsDigit(r[i])
    decreases n
  {
    if n < 10 then [DigitChar(n)] else NatToString(n / 10) + [DigitChar(n % 10)]
  }

  /** `str(i)` for a Python `int`. */
  function IntToString(i: int): string {
    if i < 0 then "-" + NatToString(-i) else NatToString(i)
  }

  /** The value of a string of decimal digits (the inverse of `NatToString`). */
  function DigitsValue(s: string): nat
    requires forall i :: 0 <= i < |s| ==> IsDigit(s[i])
  {
    if |s| == 0 then 0
    else
      assert IsDigit(s[|s| - 1]);
      10 * DigitsValue(s[..|s| - 1]) + (s[|s| - 1] as int - '0' as int)
  }

  /** `str` of a natural number reads back as that number. */
  lemma {:induction false} NatToStringRoundTrip(n: nat)
    ensures DigitsValue(NatToString(n)) == n
    decreases n
  {
    var r := NatToString(n);
    if n >= 10 {
      NatToStringRoundTrip(n / 10);
      assert r[..|r| - 1] == NatToString(n / 10);
    }
  }
}
